=== FILE: README.md ===
# Helpful vote statistics — a Dafny model

The model covers `Helpful_Helper_Stats`, the statistics helper of the Helpful
WordPress plugin. Visitors vote a post "pro" (helpful) or "contra" (not
helpful), and the helper turns the vote log into four kinds of output:

- per-post counts and percentages (`getPro`, `getContra`);
- the list of years that have votes (`getYears`);
- chart payloads for today, yesterday, this week, a month, a year, a date
  range and all time (`getStatsToday` … `getStatsTotal`);
- the most and least helpful leaderboards (`getMostHelpful`,
  `getLeastHelpful`).

Every one of these reads through the same transient cache.

Modules, one file each:

- `Collections` (collections.dfy) models the two PHP array idioms the code
  relies on:
  - first-occurrence deduplication (`array_unique`, or assignment into an
    array keyed by value);
  - the length rule of `array_slice($a, 0, $length)`.
- `Calendar` (calendar.dfy) models dates as day numbers counted from
  1970-01-01 in the proleptic Gregorian calendar. It provides
  days-in-month, the weekday, and the Monday that starts a week.
  `strtotime("+$i days")` becomes integer addition.
- `Percentages` (percentages.dfy) holds a post's tally and its pro and
  contra shares as exact reals.
- `Buckets` (buckets.dfy) holds the vote rows, the zero-filled bucket frames
  of each period, and the two ways rows are folded into buckets:
  - the week, month and year charts use a nested loop that drops any row
    whose key matches no bucket;
  - the range chart adds by key and so appends a new bucket for an
    unmatched key.
- `Charts` (charts.dfy) builds the chart payload. It covers:
  - the "No entries found" error;
  - the doughnut of two sums;
  - the stacked or unstacked bar chart with the pro dataset first in green
    (#88c057) and the contra dataset second in red (#ed7161).
- `Ranking` (ranking.dfy) builds the leaderboards in four steps:
  1. score every post;
  2. stable sort from highest to lowest score;
  3. cut the list to the limit;
  4. skip zero scores.
- `Years` (years.dfy) produces the year list.
- `Caching` (caching.dfy) is the read-through cache as a small state
  machine: a map of entries and a count of query runs.
- `Endpoints` (endpoints.dfy) holds the cache names of every request and
  the time-series endpoints with the cache in front of them.
- `Formats` (formats.dfy) models PHP's `date` and `sprintf` as far as the
  year chart's anchor date needs them.

The model follows PHP 8 semantics. From PHP 8.0, `arsort` is stable, and
`sprintf` throws a `ValueError` on a directive with an unknown type
specifier.

The month chart's missing last day is modelled as written (`MonthFrame`
has `days_in_month - 1` buckets). The full-month frame stands beside it
under "Findings".

Rows arrive already filtered by the endpoint's SQL query. The current date
is a parameter (`today`), and so are the option `helpful_caching`, the
limit, and the per-post tallies.

## Model

Source paths are relative to the repository root.

| member | source | states |
|---|---|---|
| Caching.ReadThrough | core/classes/class-helpful-helper-stats.php:69-83 | caching not "on": the query runs and the stored entries are unchanged; on with an entry: the stored value is used, no query, store unchanged; on without one: the query runs once and its value is stored under the key |
| Caching.ReadThroughKeepsEntries | core/classes/class-helpful-helper-stats.php:76-81 | a read never overwrites or removes an entry already stored under any key |
| Caching.BypassRunsEveryTime | core/classes/class-helpful-helper-stats.php:76-77 | with caching off, two reads of one key run the query twice and each returns its own result |
| Caching.SecondReadHits | core/classes/class-helpful-helper-stats.php:78-81 | with caching on, a second read of a key returns the first read's value without another query |
| Percentages.Share | core/classes/class-helpful-helper-stats.php:89-99 | the zero-guarded share lies in [0, 100], is 0 exactly when the part is 0, 100 exactly when the other side is 0, and otherwise times the total equals 100 times the part |
| Percentages.ProPercentage | core/classes/class-helpful-helper-stats.php:89-101 | `getPro` with percentages: 0 iff no pro vote, otherwise pro/(pro+contra)·100, never dividing by zero |
| Percentages.ContraPercentage | core/classes/class-helpful-helper-stats.php:147-159 | `getContra` with percentages: 0 iff no contra vote, otherwise contra/(pro+contra)·100 |
| Percentages.PercentagesComplement | core/classes/class-helpful-helper-stats.php:91-96 | for a post with votes, the pro and contra percentages add up to 100 |
| Years.YearList | core/classes/class-helpful-helper-stats.php:293-299 | each year of a vote time exactly once, no other value, ordered by first occurrence in the query result |
| Years.YearListDescending | core/classes/class-helpful-helper-stats.php:271-299 | vote times listed newest first give a strictly decreasing year list |
| Calendar.DaysInMonth | core/classes/class-helpful-helper-stats.php:634 | 28 to 31 days; February has 29 exactly in leap years; April, June, September and November have 30 |
| Calendar.WeekStart | core/classes/class-helpful-helper-stats.php:517 | the Monday of the week containing a day: a Monday, at most six days before it |
| Calendar.NextMonthStart | core/classes/class-helpful-helper-stats.php:636-637 | counting whole days from the 1st of a month reaches the 1st of the next month after exactly the month's length |
| Collections.SliceLen | core/classes/class-helpful-helper-stats.php:1021 | `array_slice(…, 0, $limit)` with a non-negative limit keeps `limit` elements, or all when there are fewer; with a negative limit it drops exactly −limit elements from the end, or all when there are fewer |
| Collections.DedupeFirstOccurrenceOrder | core/classes/class-helpful-helper-stats.php:299 | deduplication keeps values in the order of their first occurrence |
| Collections.DedupeOfDescending | core/classes/class-helpful-helper-stats.php:271-299 | deduplicating a non-increasing list gives a strictly decreasing one |
| Buckets.WeekFrame | core/classes/class-helpful-helper-stats.php:514-526 | 7 zero buckets on consecutive days, the i-th on weekday i (Monday first), today among them, one short weekday label per bucket |
| Buckets.ConsecutiveKeysDistinct | core/classes/class-helpful-helper-stats.php:519-525 | buckets on consecutive days have pairwise different keys |
| Buckets.MonthFrame | core/classes/class-helpful-helper-stats.php:630-642 | days_in_month − 1 zero buckets, the i-th on day i+1 of the month; the month's last day has no bucket; one label per bucket |
| Buckets.YearFrame | core/classes/class-helpful-helper-stats.php:737-748 | 12 zero buckets keyed January to December, one month label each, stepping from the intended 1 January anchor (see "Findings") |
| Buckets.RangeFrame | core/classes/class-helpful-helper-stats.php:845-860 | \|to − from\| + 1 zero buckets on consecutive days, the first on `from`, the last on `to` when `to` is not earlier |
| Buckets.FoldMatching | core/classes/class-helpful-helper-stats.php:528-538 | folding keeps the keys and their order; each bucket gains exactly the votes of the rows whose key equals its key |
| Buckets.FoldMatchingTotal | core/classes/class-helpful-helper-stats.php:644-654 | the folded total is the starting total plus the votes of the rows whose key is among the bucket keys |
| Buckets.FoldedTotal | core/classes/class-helpful-helper-stats.php:528-538 | for zero buckets with distinct keys the folded total is at most the rows' total, and equal when every row falls in a bucket |
| Buckets.AddOrAppend | core/classes/class-helpful-helper-stats.php:862-866 | adding a row by key hits the existing bucket, or appends a new bucket at the end for an unknown key; keys stay distinct |
| Buckets.FoldAppendingKeys | core/classes/class-helpful-helper-stats.php:862-866 | after the range fold every row's day has a bucket, and every appended bucket is the day of some row |
| Buckets.FoldAppendingOrder | core/classes/class-helpful-helper-stats.php:862-866 | the range fold's keys are the frame's keys followed by the rows' new days, each once, in the order they first occur among the rows |
| Buckets.FoldAppendingCounts | core/classes/class-helpful-helper-stats.php:862-866 | after the range fold every bucket holds its starting votes plus the votes of the rows on its day |
| Buckets.FoldAppendingInWindow | core/classes/class-helpful-helper-stats.php:862-866 | when every row lies in the range, the range fold appends nothing and equals the matching fold |
| Charts.MonthArgument | core/classes/class-helpful-helper-stats.php:592-596 | an omitted month is the current month; a given one is taken as its absolute value |
| Endpoints.MonthStats | core/classes/class-helpful-helper-stats.php:586-626 | `getStatsMonth` serves the month the argument resolves to: the current month when omitted, the absolute value otherwise, for the query, the cache name and the chart alike |
| Endpoints.OmittedMonthIsCurrent | core/classes/class-helpful-helper-stats.php:592-593 | omitting the month is the same call, with the same answer and store, as passing the current month |
| Endpoints.NegatedMonthIsSame | core/classes/class-helpful-helper-stats.php:594-595 | a negative month is the same call as its absolute value |
| Charts.Build | core/classes/class-helpful-helper-stats.php:507-512 | no rows give the error payload and only no rows do, for any period argument, a month outside 1..12 included; with rows, today, yesterday and total give a doughnut, the others a bar chart |
| Charts.DoughnutShowsSums | core/classes/class-helpful-helper-stats.php:350-372 | the doughnut shows the sum of pro then the sum of contra over all rows, green then red |
| Charts.BarShape | core/classes/class-helpful-helper-stats.php:541-566 | two datasets, pro first and contra second, in green and red, labels from the frame, stacked for every bar period except the range |
| Charts.BarValuesMatching | core/classes/class-helpful-helper-stats.php:528-556 | week, month and year charts show one value per bucket, the votes of that side on the bucket's day or month |
| Charts.BarValuesRange | core/classes/class-helpful-helper-stats.php:862-883 | for rows inside the range, one value per day of the range, the votes of that side on that day |
| Charts.WeekChartTotal | core/classes/class-helpful-helper-stats.php:528-538 | the week chart shows at most all votes of the rows, and all of them when every row falls in the week |
| Charts.MonthChartDropsLastDay | core/classes/class-helpful-helper-stats.php:633-654 | for rows of one month, the chart shows every vote except those on the month's last day |
| Charts.FullMonthShowsAll | core/classes/class-helpful-helper-stats.php:634 | with days_in_month buckets, the month chart shows every vote of the month |
| Ranking.Score | core/classes/class-helpful-helper-stats.php:1011-1014 | the most helpful score is pro − contra and the least helpful score is contra − pro; a score is zero exactly when pro equals contra, and non-zero only for a post with votes |
| Ranking.Candidates | core/classes/class-helpful-helper-stats.php:1011-1015 | one score entry per distinct post, in first-encounter order, carrying that post's score |
| Ranking.SortByScore | core/classes/class-helpful-helper-stats.php:1018 | sorting is a permutation of the score entries |
| Ranking.SortRanked | core/classes/class-helpful-helper-stats.php:1018 | the sorted list is by score descending, ties in encounter order (a stable `arsort`) |
| Ranking.InsertRanked | core/classes/class-helpful-helper-stats.php:1018 | inserting into a ranked list keeps it ranked |
| Ranking.Kept | core/classes/class-helpful-helper-stats.php:1023-1026 | the skip loop keeps exactly the entries of the cut list whose score is non-zero |
| Ranking.KeptRanked | core/classes/class-helpful-helper-stats.php:1023-1026 | skipping keeps the survivors in ranked order |
| Ranking.LinePercentageIsProShare | core/classes/class-helpful-helper-stats.php:1120-1131 | the least helpful list's percentage, 0 when contra is the whole total, is the pro share in every case, as on the most helpful list |
| Ranking.Standings | core/classes/class-helpful-helper-stats.php:1011-1018 | the sorted score list has one entry per distinct post, is a permutation of the score entries, and is ranked |
| Ranking.Shown | core/classes/class-helpful-helper-stats.php:1016-1026 | exactly the non-zero entries among the first `SliceLen(n, limit)` of the sorted list are shown, in ranked order |
| Ranking.KeptOfCut | core/classes/class-helpful-helper-stats.php:1021-1026 | after a cut to n entries, the skip loop keeps every non-zero entry of the cut and nothing from outside it |
| Ranking.ShownPosts | core/classes/class-helpful-helper-stats.php:1011-1026 | each shown post occurs in the input once, with its own non-zero score; scores do not increase, and equal scores keep the posts' first-occurrence order |
| Ranking.Lines | core/classes/class-helpful-helper-stats.php:1038-1052 | one line per shown entry, with the post, its pro and contra counts, its score and its pro share |
| Ranking.Leaderboard | core/classes/class-helpful-helper-stats.php:1009-1061 | empty with fewer than two distinct posts; otherwise one line for every non-zero post among the first `SliceLen(n, limit)` of the sorted list, and for no other post; each line with the post's own counts, non-zero score and pro share; scores non-increasing, ties in first-occurrence order; each post once |
| Ranking.LinesFollowShown | core/classes/class-helpful-helper-stats.php:1038-1052 | lines built one per shown entry have a line for every non-zero post of the cut and no line for any other |
| Ranking.ShownKeepsHigherScores | core/classes/class-helpful-helper-stats.php:1018-1026 | a non-zero entry that outranks a shown entry is shown too |
| Ranking.LeaderboardKeepsHigherScores | core/classes/class-helpful-helper-stats.php:1018-1026 | a post with a non-zero score higher than some line's score is on the board |
| Ranking.LeaderboardExample | core/classes/class-helpful-helper-stats.php:1016-1026 | tallies 5/0, 2/2, 1/4 with limit 2 show only the first post at 100 percent: the zero score used a slot of the cut |
| Endpoints.RequestKey | core/classes/class-helpful-helper-stats.php:69 | a post count's cache name is its prefix followed by the post id; a period's name is the endpoint's name followed by the period's arguments in the chosen scheme |
| Endpoints.PeriodKeysInjective | core/classes/class-helpful-helper-stats.php:822 | with every argument in the name, two periods share a cache entry only if they are the same period, and, for today, yesterday and the week, only on the same date |
| Endpoints.CorrectedKeysInjective | core/classes/class-helpful-helper-stats.php:822 | with every argument the query depends on in the name, the current date included where the query reads the clock, two requests share a cache entry only if they are the same request on the same date |
| Endpoints.AsWrittenKeysCollide | core/classes/class-helpful-helper-stats.php:607 | as written, all month statistics share one entry whatever the year, month and date, and so do all year, today and week statistics |
| Endpoints.ServeStats | core/classes/class-helpful-helper-stats.php:607-626 | a time-series endpoint answers from its query's rows with caching off, from the stored rows on a hit, and stores the query's rows on a miss |
| Endpoints.CorrectedServesOwnRows | core/classes/class-helpful-helper-stats.php:607-618 | with corrected names, and a database whose answers change with the date only for the periods that read the clock, a cache whose entries hold their own query's rows answers every period on every date as the database would, and stays so |
| Endpoints.TodayKeyServesOtherDay | core/classes/class-helpful-helper-stats.php:327 | as written, the today entry filled on 8 April, if it has not expired, answers 9 April with a chart although 9 April's query finds no row; with the date in the name the answer is the error payload |
| Endpoints.MonthKeyServesStaleRows | core/classes/class-helpful-helper-stats.php:607 | as written, after a March call an April call is answered with March's rows and misses an April vote |
| Endpoints.YearKeyServesStaleRows | core/classes/class-helpful-helper-stats.php:714-735 | as written, after a 2023 call with a vote, a 2024 call with no vote finds the stored rows and does not answer "No entries found", whichever year anchor the chart then uses; with the year in the name it does |
| Formats.DateOfDay | core/classes/class-helpful-helper-stats.php:740 | `date` of a format whose only letter is `d`: `"d"` gives the two-digit day, any other single character is copied, a format without `d` is unchanged, and the result is one character longer per `d` |
| Formats.DateOfDayAppend | core/classes/class-helpful-helper-stats.php:740 | `date` formats character by character: the format of a joined string is the join of the formats, which with the one-character cases fixes every output |
| Formats.Sprintf | core/classes/class-helpful-helper-stats.php:740 | `sprintf` of a format without `%` is the format itself |
| Formats.YearAnchorFails | core/classes/class-helpful-helper-stats.php:740 | as written, `sprintf(date('%d-1-1'), $year)` fails with the unknown specifier `-` on every day from the 1st to the 31st, for every year |
| Formats.IntendedYearAnchor | core/classes/class-helpful-helper-stats.php:740 | `sprintf('%d-1-1', $year)` is the year in decimal followed by `-1-1`, the first of January |

## Left out

- WordPress and database plumbing is not modelled: `$wpdb`, the global
  `$post`, `get_option`, the transient store, `maybe_serialize` and
  `WP_Query`. Their values are parameters. The whole cached `WP_Query`
  object of the leaderboards is abstracted as the list of post ids.
- The SQL filters (`DAYOFYEAR`, `WEEK(…, 1)`, `MONTH`, `YEAR`, `DATE`) are
  not modelled. The rows are what the query returned.
- Date formatting, time zones and parsing are not modelled: `helpful_date`,
  `date_i18n`, `strtotime` and `new DateTime`. Dates are year/month/day
  triples and day numbers. A label records which day or month it shows and
  in which style, not the rendered text.
- Rounding to two places, `number_format` and the removal of ".00" are
  string formatting. Percentages are exact reals.
- `getProAll` and `getContraAll` are left out. Their percentage branch
  turns on `is_int` of a string result, which is PHP type juggling rather
  than statistics logic.
- `getRecentlyPro` and `getRecentlyContra` are left out. They are
  presentation over a pre-limited SQL result.
- Localised strings, `human_time_diff`, permalinks, titles and the chart
  option maps are not modelled. These are presentation and calls into
  WordPress.
- Cache expiry (`helpful_cache_time`) is not modelled. An expired entry is
  an absent key.
- Charts.Build: a month argument outside 1..12 is modelled only while no
  rows reach the chart. Its SQL query selects no row, so the answer is the
  error payload, and that is modelled. Rows for such a month could only
  come from the shared `helpful_month` entry as written. The model excludes
  that case, because `strtotime` of such a date yields an unrelated
  timestamp.
- Ranking.Leaderboard: with fewer than two distinct posts, the source
  returns its `$results` variable without having assigned it. That is an
  error under the declared `array` return type. The model returns the empty
  list.
- Ranking.Leaderboard: the per-post counts come from a map (`tallies`)
  rather than from two further cached `getPro`/`getContra` calls per post.
- Counts are unbounded naturals. PHP's 64-bit integers are never near
  their limit for vote counts.
- Buckets.YearFrame: models the year chart with the intended anchor, the
  first of January of the requested year. As written, the anchor throws on
  PHP 8 (see "Findings"). Earlier PHP versions did not throw there. What
  they produced from the malformed anchor is outside this model.
- Formats.Sprintf: renders only a plain `%d`. Other directives give
  `Unmodelled`. So does a directive with no argument left, which PHP 8
  skips in order to throw `ArgumentCountError` at the end. An argument
  number `n$` is parsed but not checked against the arguments. PHP would
  skip a directive whose numbered argument is missing, where the model
  still reports its specifier. The year chart uses none of these.
- Years.YearList: `array_unique` keeps the original array keys, so PHP's
  year list can have gaps in its indices (`[0 => 2024, 3 => 2023]`). The
  model returns the same values in the same order as a list, so the keys
  are abstracted away.
- Buckets.Row: the pro and contra columns are naturals (vote flags), so
  `absint` on the doughnut sums is the identity.

## Findings

| source | as written | input that shows it | evidently intended | confidence | as-written member | corrected member |
|---|---|---|---|---|---|---|
| core/classes/class-helpful-helper-stats.php:607 | the month statistics are cached under the single name `helpful_month`, although the query depends on year and month | caching on; month 2024-03 requested with one pro vote, then 2024-04 with one contra vote on the 5th: the April chart shows March's rows | the name carries the year and month, as the range name carries its dates | not executed; high | Endpoints.MonthKeyServesStaleRows | Endpoints.CorrectedServesOwnRows |
| core/classes/class-helpful-helper-stats.php:714 | the year statistics are cached under the single name `helpful_year`, although the query depends on the year | caching on; year 2023 requested with one vote, then year 2024 with no vote: the stored 2023 rows are served instead of "No entries found" (on PHP 8 they then reach the :740 anchor and throw) | the name carries the year | not executed; high | Endpoints.YearKeyServesStaleRows | Endpoints.CorrectedKeysInjective |
| core/classes/class-helpful-helper-stats.php:327 | the today statistics are cached under the single name `helpful_today`, although the query depends on the year and on the current date (likewise `helpful_yesterday` at :409 and `helpful_week` at :491) | caching on with a cache time longer than the gap to the next day; one vote on 2024-04-08 and a call that day, then a call on 2024-04-09 with no vote before the entry expires: the second call shows the first day's chart instead of "No entries found" | the name carries the year and the date | not executed; high | Endpoints.TodayKeyServesOtherDay | Endpoints.CorrectedServesOwnRows |
| core/classes/class-helpful-helper-stats.php:740 | the year chart's anchor is `sprintf(date('%d-1-1'), $year)`: `date` turns the `d` into the day of the month, and `sprintf` then reads `%` and that day as modifiers and `-` as the type specifier | any year with at least one vote, on PHP 8: `sprintf` throws a `ValueError` for the unknown format specifier `-`, and no chart is returned | `sprintf('%d-1-1', $year)`, the first of January of the year | not executed; high | Formats.YearAnchorFails | Formats.IntendedYearAnchor |
| core/classes/class-helpful-helper-stats.php:634 | the month chart has `date('t') - 1` buckets, so the last day of every month is missing | a single vote on 2024-01-31: the January chart shows no vote | one bucket per day of the month | not executed; high | Charts.MonthChartDropsLastDay | Charts.FullMonthShowsAll |

=== FILE: buckets.dfy ===
/** The period bucketing engine: zero-filled, chronologically ordered buckets
    for a week, a month, a year or a date range, and the two ways the source
    folds vote rows into them (`getStatsWeek`, `getStatsMonth`,
    `getStatsYear` match keys in a nested loop; `getStatsRange` adds by key). */
module Buckets {
  import opened Calendar
  import opened Collections

  /** One row of `SELECT pro, contra, time`: the vote flags (or counts) and
      the date the vote was cast. */
  datatype Row = Row(pro: nat, contra: nat, time: Date)

  datatype Side = Pro | Contra

  function Votes(r: Row, s: Side): nat {
    match s
    case Pro => r.pro
    case Contra => r.contra
  }

  /** Week, month and range buckets are days (`Ymd` keys); year buckets are
      months, keyed by the month alone (`M` keys). */
  datatype Granularity = Daily | Monthly

  function RowKey(g: Granularity, r: Row): int {
    match g
    case Daily => DayNumber(r.time)
    case Monthly => r.time.month
  }

  function RowKeys(rows: seq<Row>, g: Granularity): (ks: seq<int>)
    ensures |ks| == |rows|
    ensures forall i :: 0 <= i < |rows| ==> ks[i] == RowKey(g, rows[i])
  {
    seq(|rows|, i requires 0 <= i < |rows| => RowKey(g, rows[i]))
  }

  lemma RowKeysCons(rows: seq<Row>, g: Granularity)
    requires rows != []
    ensures RowKeys(rows, g) == [RowKey(g, rows[0])] + RowKeys(rows[1..], g)
  {
  }

  /** One chart column: its key and the pro and contra totals folded into it. */
  datatype Bucket = Bucket(key: int, pro: nat, contra: nat)

  function Count(b: Bucket, s: Side): nat {
    match s
    case Pro => b.pro
    case Contra => b.contra
  }

  function Keys(bs: seq<Bucket>): (ks: seq<int>)
    ensures |ks| == |bs|
    ensures forall i :: 0 <= i < |bs| ==> ks[i] == bs[i].key
  {
    seq(|bs|, i requires 0 <= i < |bs| => bs[i].key)
  }

  predicate Zeroed(bs: seq<Bucket>) {
    forall i :: 0 <= i < |bs| ==> bs[i].pro == 0 && bs[i].contra == 0
  }

  /** The keys are the days `start`, `start + 1`, ... in order. */
  predicate ConsecutiveFrom(bs: seq<Bucket>, start: int) {
    forall i :: 0 <= i < |bs| ==> bs[i].key == start + i
  }

  /** How a label renders its day or month; the localised text itself
      (`date_i18n`) is outside the model. */
  datatype DayStyle = ShortWeekday | DayAndMonth
  datatype Label = DayLabel(style: DayStyle, day: int) | MonthLabel(month: int)

  /** The zero-filled buckets of a period and their axis labels. */
  datatype Frame = Frame(buckets: seq<Bucket>, labels: seq<Label>)

  function DailyFrame(start: int, count: nat, style: DayStyle): (f: Frame)
    ensures |f.buckets| == count && |f.labels| == count
    ensures Zeroed(f.buckets) && ConsecutiveFrom(f.buckets, start)
    ensures forall i :: 0 <= i < count ==> f.labels[i] == DayLabel(style, start + i)
  {
    Frame(seq(count, i => Bucket(start + i, 0, 0)),
          seq(count, i => DayLabel(style, start + i)))
  }

  lemma ConsecutiveKeysDistinct(bs: seq<Bucket>, start: int)
    requires ConsecutiveFrom(bs, start)
    ensures Distinct(Keys(bs))
  {
  }

  /** The week: seven days Monday to Sunday of the week containing `today`,
      labelled by weekday. */
  function WeekFrame(today: Date): (f: Frame)
    ensures |f.buckets| == 7 && |f.labels| == 7 && Zeroed(f.buckets)
    ensures forall i :: 0 <= i < 7 ==> Weekday(f.buckets[i].key) == i
    ensures forall i :: 0 <= i < 6 ==> f.buckets[i + 1].key == f.buckets[i].key + 1
    ensures DayNumber(today) in Keys(f.buckets)
    ensures forall i :: 0 <= i < 7 ==> f.labels[i] == DayLabel(ShortWeekday, f.buckets[i].key)
  {
    var monday := WeekStart(DayNumber(today));
    var f := DailyFrame(monday, 7, ShortWeekday);
    assert f.buckets[DayNumber(today) - monday].key == DayNumber(today);
    f
  }

  /** The month: one bucket per day from the 1st, but only `DaysInMonth - 1`
      of them, so the last day of the month has no bucket. */
  function MonthFrame(year: int, month: int): (f: Frame)
    requires 1 <= month <= 12
    ensures |f.buckets| == DaysInMonth(year, month) - 1 == |f.labels| && Zeroed(f.buckets)
    ensures forall i :: 0 <= i < |f.buckets| ==> f.buckets[i].key == DayNumber(Date(year, month, i + 1))
    ensures DayNumber(Date(year, month, DaysInMonth(year, month))) !in Keys(f.buckets)
    ensures forall i :: 0 <= i < |f.labels| ==> f.labels[i] == DayLabel(DayAndMonth, f.buckets[i].key)
  {
    var first := DayNumber(Date(year, month, 1));
    var f := DailyFrame(first, DaysInMonth(year, month) - 1, DayAndMonth);
    forall i | 0 <= i < |f.buckets|
      ensures f.buckets[i].key == DayNumber(Date(year, month, i + 1))
    {
      DayNumberInMonth(year, month, i + 1);
    }
    DayNumberInMonth(year, month, DaysInMonth(year, month));
    f
  }

  /** The month with every one of its days, the last included: the bucket
      set the month chart evidently means to draw. */
  function FullMonthFrame(year: int, month: int): (f: Frame)
    requires 1 <= month <= 12
    ensures |f.buckets| == DaysInMonth(year, month) == |f.labels| && Zeroed(f.buckets)
    ensures forall i :: 0 <= i < |f.buckets| ==> f.buckets[i].key == DayNumber(Date(year, month, i + 1))
    ensures forall i :: 0 <= i < |f.labels| ==> f.labels[i] == DayLabel(DayAndMonth, f.buckets[i].key)
  {
    var f := DailyFrame(DayNumber(Date(year, month, 1)), DaysInMonth(year, month), DayAndMonth);
    forall i | 0 <= i < |f.buckets|
      ensures f.buckets[i].key == DayNumber(Date(year, month, i + 1))
    {
      DayNumberInMonth(year, month, i + 1);
    }
    f
  }

  /** The year: twelve buckets keyed by month, January first. The key is the
      month alone, so the year of a row plays no part in matching. */
  function YearFrame(): (f: Frame)
    ensures |f.buckets| == 12 && |f.labels| == 12 && Zeroed(f.buckets)
    ensures ConsecutiveFrom(f.buckets, 1)
    ensures forall m :: 1 <= m <= 12 ==> m in Keys(f.buckets)
    ensures forall i :: 0 <= i < 12 ==> f.labels[i] == MonthLabel(i + 1)
  {
    var f := Frame(seq(12, i => Bucket(i + 1, 0, 0)), seq(12, i => MonthLabel(i + 1)));
    forall m | 1 <= m <= 12
      ensures m in Keys(f.buckets)
    {
      assert Keys(f.buckets)[m - 1] == m;
    }
    f
  }

  /** The number of days a range spans, both ends included. The distance is
      taken unsigned (`DateTime::diff` formatted with `%a`). */
  function RangeLength(from: Date, to: Date): nat {
    var d := DayNumber(to) - DayNumber(from);
    (if d >= 0 then d else -d) + 1
  }

  /** The range: one bucket per day from `from`, as many as the range spans;
      when `from` is not after `to` the last bucket is `to` itself. */
  function RangeFrame(from: Date, to: Date): (f: Frame)
    ensures |f.buckets| == RangeLength(from, to) == |f.labels| && Zeroed(f.buckets)
    ensures f.buckets[0].key == DayNumber(from)
    ensures DayNumber(from) <= DayNumber(to) ==> f.buckets[|f.buckets| - 1].key == DayNumber(to)
    ensures forall i :: 0 <= i < |f.buckets| - 1 ==> f.buckets[i + 1].key == f.buckets[i].key + 1
    ensures forall i :: 0 <= i < |f.labels| ==> f.labels[i] == DayLabel(DayAndMonth, f.buckets[i].key)
  {
    DailyFrame(DayNumber(from), RangeLength(from, to), DayAndMonth)
  }

  /** The votes on side `s` of the rows whose key is `k`. */
  function RowsFor(rows: seq<Row>, g: Granularity, k: int, s: Side): nat {
    if rows == [] then 0
    else (if RowKey(g, rows[0]) == k then Votes(rows[0], s) else 0) + RowsFor(rows[1..], g, k, s)
  }

  /** The votes on side `s` of all rows (`array_sum(wp_list_pluck(...))`). */
  function RowsTotal(rows: seq<Row>, s: Side): nat {
    if rows == [] then 0 else Votes(rows[0], s) + RowsTotal(rows[1..], s)
  }

  /** The votes on side `s` of the rows whose key is one of `ks`. */
  function RowsInside(rows: seq<Row>, g: Granularity, ks: seq<int>, s: Side): nat {
    if rows == [] then 0
    else (if RowKey(g, rows[0]) in ks then Votes(rows[0], s) else 0) + RowsInside(rows[1..], g, ks, s)
  }

  function BucketsTotal(bs: seq<Bucket>, s: Side): nat {
    if bs == [] then 0 else Count(bs[0], s) + BucketsTotal(bs[1..], s)
  }

  /** One pass of the inner loop: the row is added to every bucket whose key
      equals the row's key, and to no other. */
  function AddRow(bs: seq<Bucket>, k: int, r: Row): (res: seq<Bucket>)
    ensures |res| == |bs| && Keys(res) == Keys(bs)
    ensures forall i, s :: 0 <= i < |bs| ==>
      Count(res[i], s) == Count(bs[i], s) + (if bs[i].key == k then Votes(r, s) else 0)
  {
    var res := seq(|bs|, i requires 0 <= i < |bs| =>
      if bs[i].key == k then Bucket(k, bs[i].pro + r.pro, bs[i].contra + r.contra) else bs[i]);
    assert forall i :: 0 <= i < |bs| ==> Keys(res)[i] == Keys(bs)[i];
    res
  }

  /** The nested-loop fold of the week, month and year charts: each bucket
      ends up holding its start value plus the votes of exactly the rows with
      its key; rows whose key matches no bucket are dropped. */
  function FoldMatching(bs: seq<Bucket>, rows: seq<Row>, g: Granularity): (res: seq<Bucket>)
    ensures |res| == |bs| && Keys(res) == Keys(bs)
    ensures forall i, s :: 0 <= i < |bs| ==>
      Count(res[i], s) == Count(bs[i], s) + RowsFor(rows, g, bs[i].key, s)
    decreases |rows|
  {
    if rows == [] then bs
    else FoldMatching(AddRow(bs, RowKey(g, rows[0]), rows[0]), rows[1..], g)
  }

  /** Adding a row to buckets with distinct keys adds its votes to the total
      once if its key is among them, and not at all otherwise. */
  lemma {:induction false} AddRowTotal(bs: seq<Bucket>, k: int, r: Row, s: Side)
    requires Distinct(Keys(bs))
    ensures BucketsTotal(AddRow(bs, k, r), s) == BucketsTotal(bs, s) + (if k in Keys(bs) then Votes(r, s) else 0)
  {
    if bs != [] {
      var res := AddRow(bs, k, r);
      assert AddRow(bs[1..], k, r) == res[1..] by {
        assert forall i :: 0 <= i < |bs| - 1 ==> Count(res[1..][i], Pro) == Count(AddRow(bs[1..], k, r)[i], Pro);
        assert forall i :: 0 <= i < |bs| - 1 ==> Count(res[1..][i], Contra) == Count(AddRow(bs[1..], k, r)[i], Contra);
        assert forall i :: 0 <= i < |bs| - 1 ==> Keys(res)[i + 1] == Keys(AddRow(bs[1..], k, r))[i];
      }
      assert Keys(bs[1..]) == Keys(bs)[1..];
      AddRowTotal(bs[1..], k, r, s);
      if bs[0].key == k {
        assert k !in Keys(bs[1..]);
      }
    }
  }

  /** The matching fold adds to the bucket total exactly the votes of the
      rows that fall inside the window. */
  lemma {:induction false} FoldMatchingTotal(bs: seq<Bucket>, rows: seq<Row>, g: Granularity, s: Side)
    requires Distinct(Keys(bs))
    ensures BucketsTotal(FoldMatching(bs, rows, g), s) == BucketsTotal(bs, s) + RowsInside(rows, g, Keys(bs), s)
    decreases |rows|
  {
    if rows != [] {
      var next := AddRow(bs, RowKey(g, rows[0]), rows[0]);
      AddRowTotal(bs, RowKey(g, rows[0]), rows[0], s);
      FoldMatchingTotal(next, rows[1..], g, s);
    }
  }

  /** Rows inside a window never hold more votes than all rows, and exactly
      as many when every row falls inside it. */
  lemma {:induction false} RowsInsideBound(rows: seq<Row>, g: Granularity, ks: seq<int>, s: Side)
    ensures RowsInside(rows, g, ks, s) <= RowsTotal(rows, s)
    ensures (forall i :: 0 <= i < |rows| ==> RowKey(g, rows[i]) in ks) ==>
      RowsInside(rows, g, ks, s) == RowsTotal(rows, s)
  {
    if rows != [] {
      RowsInsideBound(rows[1..], g, ks, s);
      assert forall i :: 0 <= i < |rows| - 1 ==> rows[1..][i] == rows[i + 1];
    }
  }

  /** Folding into zero-filled buckets with distinct keys: the chart total is
      at most the total of the rows, and equal to it when no row falls
      outside the window. */
  lemma FoldedTotal(bs: seq<Bucket>, rows: seq<Row>, g: Granularity, s: Side)
    requires Zeroed(bs) && Distinct(Keys(bs))
    ensures BucketsTotal(FoldMatching(bs, rows, g), s) <= RowsTotal(rows, s)
    ensures (forall i :: 0 <= i < |rows| ==> RowKey(g, rows[i]) in Keys(bs)) ==>
      BucketsTotal(FoldMatching(bs, rows, g), s) == RowsTotal(rows, s)
  {
    FoldMatchingTotal(bs, rows, g, s);
    ZeroedTotal(bs, s);
    RowsInsideBound(rows, g, Keys(bs), s);
  }

  lemma {:induction false} ZeroedTotal(bs: seq<Bucket>, s: Side)
    requires Zeroed(bs)
    ensures BucketsTotal(bs, s) == 0
  {
    if bs != [] {
      ZeroedTotal(bs[1..], s);
    }
  }

  /** The position of the bucket with key `k`, or -1 when there is none. */
  function IndexOfKey(bs: seq<Bucket>, k: int): (i: int)
    ensures -1 <= i < |bs|
    ensures i >= 0 ==> bs[i].key == k
    ensures i == -1 <==> k !in Keys(bs)
  {
    if bs == [] then -1
    else if bs[0].key == k then 0
    else
      var j := IndexOfKey(bs[1..], k);
      assert Keys(bs[1..]) == Keys(bs)[1..];
      if j == -1 then -1 else j + 1
  }

  /** `$pro[$date] += $result->pro`: add to the bucket with the row's key, or
      append a new bucket for it at the end when there is none. */
  function AddOrAppend(bs: seq<Bucket>, k: int, r: Row): (res: seq<Bucket>)
    requires Distinct(Keys(bs))
    ensures Distinct(Keys(res)) && k in Keys(res)
    ensures |res| == if k in Keys(bs) then |bs| else |bs| + 1
    ensures forall i :: 0 <= i < |bs| ==> res[i].key == bs[i].key
    ensures forall i, s :: 0 <= i < |res| ==>
      Count(res[i], s) == (if i < |bs| then Count(bs[i], s) else 0) + (if res[i].key == k then Votes(r, s) else 0)
  {
    var i := IndexOfKey(bs, k);
    if i >= 0 then
      var res := bs[i := Bucket(k, bs[i].pro + r.pro, bs[i].contra + r.contra)];
      assert Keys(res) == Keys(bs);
      res
    else
      var res := bs + [Bucket(k, r.pro, r.contra)];
      assert Keys(res) == Keys(bs) + [k];
      res
  }

  /** The range fold: rows are added by key in turn; a row whose day has no
      bucket opens a new one after the existing ones. */
  function FoldAppending(bs: seq<Bucket>, rows: seq<Row>): (res: seq<Bucket>)
    requires Distinct(Keys(bs))
    ensures |res| >= |bs| && Distinct(Keys(res))
    ensures forall i :: 0 <= i < |bs| ==> res[i].key == bs[i].key
    decreases |rows|
  {
    if rows == [] then bs
    else FoldAppending(AddOrAppend(bs, DayNumber(rows[0].time), rows[0]), rows[1..])
  }

  /** Every row's day has a bucket after the range fold, and every bucket it
      added is the day of some row. */
  lemma {:induction false} FoldAppendingKeys(bs: seq<Bucket>, rows: seq<Row>)
    requires Distinct(Keys(bs))
    ensures forall i :: 0 <= i < |rows| ==> DayNumber(rows[i].time) in Keys(FoldAppending(bs, rows))
    ensures forall j :: |bs| <= j < |FoldAppending(bs, rows)| ==>
      FoldAppending(bs, rows)[j].key in RowKeys(rows, Daily)
    decreases |rows|
  {
    if rows != [] {
      var k := DayNumber(rows[0].time);
      var next := AddOrAppend(bs, k, rows[0]);
      var res := FoldAppending(next, rows[1..]);
      assert res == FoldAppending(bs, rows);
      FoldAppendingKeys(next, rows[1..]);
      assert forall i :: 0 <= i < |rows| - 1 ==> rows[1..][i] == rows[i + 1];
      var i0 :| 0 <= i0 < |next| && Keys(next)[i0] == k;
      assert Keys(res)[i0] == k;
      forall j | |next| <= j < |res|
        ensures res[j].key in RowKeys(rows, Daily)
      {
        var i :| 0 <= i < |rows| - 1 && RowKeys(rows[1..], Daily)[i] == res[j].key;
        assert RowKeys(rows, Daily)[i + 1] == res[j].key;
      }
      if |next| > |bs| {
        assert res[|bs|].key == k == RowKeys(rows, Daily)[0];
      }
    }
  }

  /** Adding one row by key keeps the keys as `Dedupe` would: an existing
      day is not repeated, a new one goes to the end. */
  lemma AddOrAppendKeys(bs: seq<Bucket>, k: int, r: Row)
    requires Distinct(Keys(bs))
    ensures Keys(AddOrAppend(bs, k, r)) == Dedupe(Keys(bs) + [k])
  {
    var next := AddOrAppend(bs, k, r);
    DedupeOfDistinct(Keys(bs));
    assert (Keys(bs) + [k])[..|Keys(bs) + [k]| - 1] == Keys(bs);
    if k in Keys(bs) {
      assert Keys(next) == Keys(bs);
    } else {
      assert Keys(next) == Keys(bs) + [k];
    }
  }

  /** The range fold's keys are the frame's keys followed by the rows' new
      days, each once, in the order in which they first occur among the rows
      (the order in which `$stats[$key] +=` appends them). */
  lemma {:induction false} FoldAppendingOrder(bs: seq<Bucket>, rows: seq<Row>)
    requires Distinct(Keys(bs))
    ensures Keys(FoldAppending(bs, rows)) == Dedupe(Keys(bs) + RowKeys(rows, Daily))
    decreases |rows|
  {
    if rows == [] {
      assert Keys(bs) + RowKeys(rows, Daily) == Keys(bs);
      DedupeOfDistinct(Keys(bs));
    } else {
      var k := DayNumber(rows[0].time);
      var next := AddOrAppend(bs, k, rows[0]);
      var tail := RowKeys(rows[1..], Daily);
      AddOrAppendKeys(bs, k, rows[0]);
      FoldAppendingOrder(next, rows[1..]);
      assert FoldAppending(bs, rows) == FoldAppending(next, rows[1..]);
      RowKeysCons(rows, Daily);
      DedupeOfDedupedStep(Keys(bs), k, tail, RowKeys(rows, Daily));
    }
  }

  /** After the range fold, each bucket holds its start value (zero for an
      added one) plus the votes of exactly the rows with its day. */
  lemma {:induction false} FoldAppendingCounts(bs: seq<Bucket>, rows: seq<Row>)
    requires Distinct(Keys(bs))
    ensures forall j, s :: 0 <= j < |FoldAppending(bs, rows)| ==>
      Count(FoldAppending(bs, rows)[j], s)
        == (if j < |bs| then Count(bs[j], s) else 0) + RowsFor(rows, Daily, FoldAppending(bs, rows)[j].key, s)
    decreases |rows|
  {
    if rows != [] {
      var k := DayNumber(rows[0].time);
      var next := AddOrAppend(bs, k, rows[0]);
      var res := FoldAppending(next, rows[1..]);
      assert res == FoldAppending(bs, rows);
      FoldAppendingCounts(next, rows[1..]);
      var i0 :| 0 <= i0 < |next| && Keys(next)[i0] == k;
      assert Keys(res)[i0] == k;
      assert forall j :: |next| <= j < |res| ==> res[j].key != k;
    }
  }

  /** When every row's day already has a bucket, the range fold adds no
      bucket and gives the same columns as the matching fold. */
  lemma FoldAppendingInWindow(bs: seq<Bucket>, rows: seq<Row>)
    requires Distinct(Keys(bs))
    requires forall i :: 0 <= i < |rows| ==> DayNumber(rows[i].time) in Keys(bs)
    ensures FoldAppending(bs, rows) == FoldMatching(bs, rows, Daily)
  {
    var a := FoldAppending(bs, rows);
    var m := FoldMatching(bs, rows, Daily);
    FoldAppendingKeys(bs, rows);
    FoldAppendingCounts(bs, rows);
    if |a| > |bs| {
      assert false;
    }
    forall j | 0 <= j < |a|
      ensures a[j] == m[j]
    {
      assert Keys(m)[j] == Keys(bs)[j];
      assert Count(a[j], Pro) == Count(m[j], Pro) && Count(a[j], Contra) == Count(m[j], Contra);
    }
  }

  /** When every row's key is either one of `ks` or the single key `k`
      outside them, the rows inside `ks` hold all votes but those on `k`. */
  lemma {:induction false} RowsInsideAllBut(rows: seq<Row>, g: Granularity, ks: seq<int>, k: int, s: Side)
    requires k !in ks
    requires forall i :: 0 <= i < |rows| ==> RowKey(g, rows[i]) in ks || RowKey(g, rows[i]) == k
    ensures RowsInside(rows, g, ks, s) + RowsFor(rows, g, k, s) == RowsTotal(rows, s)
  {
    if rows != [] {
      assert forall i :: 0 <= i < |rows| - 1 ==> rows[1..][i] == rows[i + 1];
      RowsInsideAllBut(rows[1..], g, ks, k, s);
    }
  }
}

=== FILE: caching.dfy ===
/** The read-through policy every endpoint of the statistics helper repeats:
    with caching off the query always runs and nothing is stored; with
    caching on a stored value is used as is, and a missing one is produced
    by the query and stored. Expiry, serialisation and the store itself are
    outside the model: an expired entry is simply absent. */
module Caching {

  /** A cache entry's name: a fixed prefix and the arguments appended to it
      (`'helpful_pro_' . $post_id` is `CacheKey("helpful_pro_", [post_id])`). */
  datatype CacheKey = CacheKey(name: string, args: seq<int>)

  /** The transient store, and how many times a query has been run. */
  datatype Store<V> = Store(entries: map<CacheKey, V>, queries: nat)

  /** The `helpful_caching` option value that turns caching on. */
  const On: string := "on"

  /** Read `key` through the cache; `produced` is what the query returns if it
      is run. Gives the value the endpoint goes on with and the new store. */
  function ReadThrough<V>(caching: string, st: Store<V>, key: CacheKey, produced: V): (r: (V, Store<V>))
    ensures caching != On ==> r.0 == produced && r.1 == Store(st.entries, st.queries + 1)
    ensures caching == On && key in st.entries ==> r.0 == st.entries[key] && r.1 == st
    ensures caching == On && key !in st.entries ==>
      r.0 == produced && r.1 == Store(st.entries[key := produced], st.queries + 1)
  {
    if caching != On then (produced, Store(st.entries, st.queries + 1))
    else if key in st.entries then (st.entries[key], st)
    else (produced, Store(st.entries[key := produced], st.queries + 1))
  }

  /** A read never changes or drops an entry that is already stored. */
  lemma ReadThroughKeepsEntries<V>(caching: string, st: Store<V>, key: CacheKey, produced: V)
    ensures forall k :: k in st.entries ==>
      k in ReadThrough(caching, st, key, produced).1.entries
      && ReadThrough(caching, st, key, produced).1.entries[k] == st.entries[k]
  {
  }

  /** With caching off, two reads of the same key both run the query, each
      returns its own produced value, and the store is untouched. */
  lemma BypassRunsEveryTime<V>(caching: string, st: Store<V>, key: CacheKey, a: V, b: V)
    requires caching != On
    ensures var (x, st1) := ReadThrough(caching, st, key, a);
            var (y, st2) := ReadThrough(caching, st1, key, b);
            x == a && y == b && st2.entries == st.entries && st2.queries == st.queries + 2
  {
  }

  /** With caching on, a second read of the same key returns what the first
      one returned without running the query again: reads are idempotent. */
  lemma SecondReadHits<V>(st: Store<V>, key: CacheKey, a: V, b: V)
    ensures var (x, st1) := ReadThrough(On, st, key, a);
            var (y, st2) := ReadThrough(On, st1, key, b);
            y == x && st2 == st1 && st1.queries <= st.queries + 1
  {
  }
}

=== FILE: calendar.dfy ===
/** Calendar arithmetic standing in for the PHP date helpers (`strtotime`,
    `date_i18n('Ymd')`, `date_i18n('t')`): dates are year/month/day triples and
    days are counted as integers from 1 January 1970 in the proleptic
    Gregorian calendar, so "+$i days" is integer addition. */
module Calendar {

  datatype Date = Date(year: int, month: int, day: int)

  predicate IsLeapYear(y: int) {
    y % 4 == 0 && (y % 100 != 0 || y % 400 == 0)
  }

  /** The number of days in a month (`date('t')`). */
  function DaysInMonth(y: int, m: int): (n: nat)
    requires 1 <= m <= 12
    ensures 28 <= n <= 31
    ensures m == 2 ==> (n == 29 <==> IsLeapYear(y))
    ensures m != 2 ==> (n == 30 <==> m in {4, 6, 9, 11})
  {
    if m == 2 then (if IsLeapYear(y) then 29 else 28)
    else if m == 4 || m == 6 || m == 9 || m == 11 then 30
    else 31
  }

  predicate ValidDate(d: Date) {
    1 <= d.month <= 12 && 1 <= d.day <= DaysInMonth(d.year, d.month)
  }

  /** Days from the start of the (March-based) year `y` of the 400-year cycle
      it lies in, plus the cycle's own offset. March-based years put the leap
      day last, so the month table below needs no leap-year case. */
  function MarchYearStart(y: int): int {
    var era := y / 400;
    var yoe := y % 400;
    era * 146097 + yoe * 365 + yoe / 4 - yoe / 100
  }

  /** Days from 1 January 1970 to `d` (negative before it). */
  function DayNumber(d: Date): int {
    var y := if d.month <= 2 then d.year - 1 else d.year;
    var mp := (d.month + 9) % 12;
    MarchYearStart(y) + (153 * mp + 2) / 5 + d.day - 1 - 719468
  }

  /** Day of the week of day number `n`: 0 is Monday, 6 is Sunday
      (1 January 1970 was a Thursday). */
  function Weekday(n: int): (w: int)
    ensures 0 <= w < 7
  {
    (n + 3) % 7
  }

  /** The day number of the Monday that starts the week containing `n`
      (`strtotime('monday this week')`): on a Sunday it is six days back. */
  function WeekStart(n: int): (monday: int)
    ensures Weekday(monday) == 0
    ensures monday <= n < monday + 7
  {
    n - Weekday(n)
  }

  /** Within a month, consecutive days have consecutive day numbers. */
  lemma DayNumberInMonth(y: int, m: int, d: int)
    ensures DayNumber(Date(y, m, d)) == DayNumber(Date(y, m, 1)) + d - 1
  {
  }

  /** A March-based year has 366 days exactly when the February that ends it
      belongs to a leap year. */
  lemma {:induction false} MarchYearLength(y: int)
    ensures MarchYearStart(y + 1) - MarchYearStart(y) == if IsLeapYear(y + 1) then 366 else 365
  {
    var era := y / 400;
    var yoe := y % 400;
    CycleSplit(y);
    CycleSplit(y + 1);
    if yoe == 399 {
      assert (y + 1) / 400 == era + 1;
      assert (y + 1) % 400 == 0;
      assert MarchYearStart(y + 1) == (era + 1) * 146097;
      assert MarchYearStart(y) == era * 146097 + 145731;
      assert IsLeapYear(y + 1);
    } else {
      assert (y + 1) / 400 == era && (y + 1) % 400 == yoe + 1;
      LeapInCycle(y + 1);
      StepQuotients(yoe);
    }
  }

  /** `y` is `y / 400` whole cycles plus `y % 400` years. */
  lemma CycleSplit(y: int)
    ensures y == (y / 400) * 400 + y % 400 && 0 <= y % 400 < 400
  {
  }

  /** Leap years repeat every 400 years. */
  lemma LeapInCycle(y: int)
    ensures IsLeapYear(y) <==> (y % 400) % 4 == 0 && ((y % 400) % 100 != 0 || y % 400 == 0)
  {
    var k := y % 400;
    var e := y / 400;
    assert y == e * 400 + k;
    assert y % 4 == k % 4 by { assert y == 4 * (e * 100) + k; }
    assert y % 100 == k % 100 by { assert y == 100 * (e * 4) + k; }
  }

  /** Moving one year on inside a cycle adds a leap day exactly at multiples of four,
      less the century years. */
  lemma StepQuotients(k: int)
    requires 0 <= k < 399
    ensures (k + 1) / 4 - k / 4 == if (k + 1) % 4 == 0 then 1 else 0
    ensures (k + 1) / 100 - k / 100 == if (k + 1) % 100 == 0 then 1 else 0
  {
  }

  /** The first day of the following month comes `DaysInMonth` days after
      the first day of this one: the day count and the month lengths agree. */
  lemma {:induction false} NextMonthStart(y: int, m: int)
    requires 1 <= m <= 12
    ensures DayNumber(if m == 12 then Date(y + 1, 1, 1) else Date(y, m + 1, 1))
         == DayNumber(Date(y, m, 1)) + DaysInMonth(y, m)
  {
    if m == 2 {
      MarchYearLength(y - 1);
    }
  }

  /** Fixed points that tie the day count to the real calendar: 1 January
      1970 is day 0, a Thursday, and 1 January 2024 is a Monday. */
  lemma CalendarAnchors()
    ensures DayNumber(Date(1970, 1, 1)) == 0 && Weekday(0) == 3
    ensures DayNumber(Date(2024, 1, 1)) == 19723 && Weekday(19723) == 0
  {
    assert MarchYearStart(1969) == 4 * 146097 + 369 * 365 + 92 - 3;
    assert MarchYearStart(2023) == 5 * 146097 + 23 * 365 + 5;
  }
}

=== FILE: charts.dfy ===
/** The time-series endpoints (`getStatsToday`, `getStatsYesterday`,
    `getStatsWeek`, `getStatsMonth`, `getStatsYear`, `getStatsRange`,
    `getStatsTotal`) as one function over a period, and the chart payload
    they hand to the charting layer. */
module Charts {
  import opened Calendar
  import opened Collections
  import opened Buckets

  /** The fixed series colours: pro is green, contra is red. */
  const Green: string := "#88c057"
  const Red: string := "#ed7161"

  function Colour(s: Side): string {
    match s
    case Pro => Green
    case Contra => Red
  }

  /** A bar dataset: which side it shows, one value per bucket, its colour. */
  datatype Dataset = Dataset(series: Side, values: seq<nat>, colour: string)

  datatype Chart =
    | Doughnut(values: seq<nat>, colours: seq<string>, names: seq<Side>)
    | Bar(datasets: seq<Dataset>, labels: seq<Label>, stacked: bool)

  /** A time-series answer: the "No entries found" error payload, or a chart. */
  datatype Response = NoEntries | Drawn(chart: Chart)

  /** The period an endpoint covers. The year argument of the first five only
      selects rows in SQL (and names the cache entry); the rows handed in
      here have already been selected by it. */
  datatype Period =
    | Today(year: int)
    | Yesterday(year: int)
    | Week(year: int)
    | Month(year: int, month: int)
    | Year(year: int)
    | Range(from: Date, to: Date)
    | Total

  predicate IsDoughnut(p: Period) {
    p.Today? || p.Yesterday? || p.Total?
  }

  /** The month argument of `getStatsMonth`: the current month when it is
      omitted, otherwise its absolute value (`absint`). */
  function MonthArgument(month: Option<int>, today: Date): (m: int)
    ensures month.None? ==> m == today.month
    ensures month.Some? ==> m >= 0 && (m == month.value || m == -month.value)
  {
    match month
    case None => today.month
    case Some(v) => if v < 0 then -v else v
  }

  predicate WellFormed(p: Period) {
    p.Month? ==> 1 <= p.month <= 12
  }

  /** The zero-filled buckets of a bar period. */
  function Window(p: Period, today: Date): (f: Frame)
    requires WellFormed(p) && !IsDoughnut(p)
    ensures |f.buckets| == |f.labels| && Zeroed(f.buckets) && Distinct(Keys(f.buckets))
  {
    var f := match p
      case Week(_) => WeekFrame(today)
      case Month(y, m) => MonthFrame(y, m)
      case Year(_) => YearFrame()
      case Range(from, to) => RangeFrame(from, to);
    assert exists start :: ConsecutiveFrom(f.buckets, start) by {
      if p.Year? {
        assert ConsecutiveFrom(f.buckets, 1);
      } else {
        assert ConsecutiveFrom(f.buckets, f.buckets[0].key);
      }
    }
    var start :| ConsecutiveFrom(f.buckets, start);
    ConsecutiveKeysDistinct(f.buckets, start);
    f
  }

  function GranularityOf(p: Period): Granularity {
    if p.Year? then Monthly else Daily
  }

  /** The buckets of a bar period after folding the rows in. */
  function Folded(p: Period, today: Date, rows: seq<Row>): seq<Bucket>
    requires WellFormed(p) && !IsDoughnut(p)
  {
    var f := Window(p, today);
    if p.Range? then FoldAppending(f.buckets, rows) else FoldMatching(f.buckets, rows, GranularityOf(p))
  }

  /** `array_values($pro)` or `array_values($contra)`. */
  function Column(bs: seq<Bucket>, s: Side): (vs: seq<nat>)
    ensures |vs| == |bs|
    ensures forall i :: 0 <= i < |bs| ==> vs[i] == Count(bs[i], s)
  {
    seq(|bs|, i requires 0 <= i < |bs| => Count(bs[i], s))
  }

  /** `absint`, applied by the doughnut endpoints to their sums. */
  function Abs(x: int): nat {
    if x < 0 then -x else x
  }

  /** The answer of a time-series endpoint for the rows its query returned.
      No rows give the error payload; today, yesterday and total give a
      doughnut of the two sums; the others give a pro then contra bar chart
      over the period's buckets, stacked except for a range. A month outside
      1..12 matches no row in SQL, so it only ever meets the empty case. */
  function Build(p: Period, today: Date, rows: seq<Row>): (r: Response)
    requires rows != [] ==> WellFormed(p)
    ensures r.NoEntries? <==> rows == []
    ensures rows != [] && IsDoughnut(p) ==> r.chart.Doughnut?
    ensures rows != [] && !IsDoughnut(p) ==> r.chart.Bar?
  {
    if rows == [] then NoEntries
    else if IsDoughnut(p) then
      Drawn(Doughnut([Abs(RowsTotal(rows, Pro)), Abs(RowsTotal(rows, Contra))], [Green, Red], [Pro, Contra]))
    else
      var bs := Folded(p, today, rows);
      Drawn(Bar([Dataset(Pro, Column(bs, Pro), Green), Dataset(Contra, Column(bs, Contra), Red)],
                Window(p, today).labels,
                !p.Range?))
  }

  /** The doughnut endpoints show the pro total then the contra total of
      all the rows, green then red. */
  lemma DoughnutShowsSums(p: Period, today: Date, rows: seq<Row>)
    requires WellFormed(p) && IsDoughnut(p) && rows != []
    ensures Build(p, today, rows).chart.values == [RowsTotal(rows, Pro), RowsTotal(rows, Contra)]
    ensures Build(p, today, rows).chart.colours == [Green, Red]
    ensures Build(p, today, rows).chart.names == [Pro, Contra]
  {
  }

  /** A bar chart has the pro dataset first and the contra dataset second,
      each in its fixed colour, and labels taken from the period's buckets. */
  lemma BarShape(p: Period, today: Date, rows: seq<Row>)
    requires WellFormed(p) && !IsDoughnut(p) && rows != []
    ensures |Build(p, today, rows).chart.datasets| == 2
    ensures forall i :: 0 <= i < 2 ==>
      var d := Build(p, today, rows).chart.datasets[i];
      d.series == (if i == 0 then Pro else Contra) && d.colour == Colour(d.series)
    ensures Build(p, today, rows).chart.labels == Window(p, today).labels
    ensures Build(p, today, rows).chart.stacked <==> !p.Range?
  {
  }

  /** Week, month and year charts: one value per bucket, and each value is
      the sum of that side's votes over the rows with the bucket's key. */
  lemma BarValuesMatching(p: Period, today: Date, rows: seq<Row>)
    requires WellFormed(p) && !IsDoughnut(p) && !p.Range? && rows != []
    ensures forall d :: d in Build(p, today, rows).chart.datasets ==>
      |d.values| == |Window(p, today).buckets|
    ensures forall d, i :: d in Build(p, today, rows).chart.datasets && 0 <= i < |d.values| ==>
      d.values[i] == RowsFor(rows, GranularityOf(p), Window(p, today).buckets[i].key, d.series)
  {
    BarValuesOfFold(p, today, rows);
  }

  /** Range charts whose rows all fall between the two dates: one value per
      day of the range, each the sum of that side's votes on that day. */
  lemma BarValuesRange(p: Period, today: Date, rows: seq<Row>)
    requires p.Range? && rows != []
    requires forall i :: 0 <= i < |rows| ==> DayNumber(rows[i].time) in Keys(Window(p, today).buckets)
    ensures forall d :: d in Build(p, today, rows).chart.datasets ==>
      |d.values| == |Window(p, today).buckets| == |Build(p, today, rows).chart.labels|
    ensures forall d, i :: d in Build(p, today, rows).chart.datasets && 0 <= i < |d.values| ==>
      d.values[i] == RowsFor(rows, Daily, Window(p, today).buckets[i].key, d.series)
  {
    FoldAppendingInWindow(Window(p, today).buckets, rows);
    BarValuesOfFold(p, today, rows);
  }

  lemma BarValuesOfFold(p: Period, today: Date, rows: seq<Row>)
    requires WellFormed(p) && !IsDoughnut(p) && rows != []
    requires Folded(p, today, rows) == FoldMatching(Window(p, today).buckets, rows, GranularityOf(p))
    ensures forall d :: d in Build(p, today, rows).chart.datasets ==>
      |d.values| == |Window(p, today).buckets|
    ensures forall d, i :: d in Build(p, today, rows).chart.datasets && 0 <= i < |d.values| ==>
      d.values[i] == RowsFor(rows, GranularityOf(p), Window(p, today).buckets[i].key, d.series)
  {
    var wb := Window(p, today).buckets;
    var bs := FoldMatching(wb, rows, GranularityOf(p));
    var ds := Build(p, today, rows).chart.datasets;
    assert ds == [Dataset(Pro, Column(bs, Pro), Green), Dataset(Contra, Column(bs, Contra), Red)];
    forall d, i | d in ds && 0 <= i < |d.values|
      ensures d.values[i] == RowsFor(rows, GranularityOf(p), wb[i].key, d.series)
    {
      assert d.values[i] == Count(bs[i], d.series);
    }
  }

  /** A week chart never shows more votes than the rows hold, and shows them
      all when every row falls in the week. */
  lemma WeekChartTotal(today: Date, rows: seq<Row>, s: Side)
    ensures BucketsTotal(Folded(Week(today.year), today, rows), s) <= RowsTotal(rows, s)
    ensures (forall i :: 0 <= i < |rows| ==> DayNumber(rows[i].time) in Keys(WeekFrame(today).buckets)) ==>
      BucketsTotal(Folded(Week(today.year), today, rows), s) == RowsTotal(rows, s)
  {
    FoldedTotal(WeekFrame(today).buckets, rows, Daily, s);
  }

  /** A month chart of rows all dated inside that month shows every vote
      except those cast on the month's last day, which has no bucket. */
  lemma MonthChartDropsLastDay(y: int, m: int, today: Date, rows: seq<Row>, s: Side)
    requires 1 <= m <= 12
    requires forall i :: 0 <= i < |rows| ==>
      rows[i].time.year == y && rows[i].time.month == m && 1 <= rows[i].time.day <= DaysInMonth(y, m)
    ensures BucketsTotal(Folded(Month(y, m), today, rows), s)
         == RowsTotal(rows, s) - RowsFor(rows, Daily, DayNumber(Date(y, m, DaysInMonth(y, m))), s)
  {
    var f := MonthFrame(y, m);
    var last := DayNumber(Date(y, m, DaysInMonth(y, m)));
    forall i | 0 <= i < |rows|
      ensures RowKey(Daily, rows[i]) in Keys(f.buckets) || RowKey(Daily, rows[i]) == last
    {
      var d := rows[i].time.day;
      assert rows[i].time == Date(y, m, d);
      if d < DaysInMonth(y, m) {
        assert Keys(f.buckets)[d - 1] == DayNumber(Date(y, m, d));
      }
    }
    FoldMatchingTotal(f.buckets, rows, Daily, s);
    ZeroedTotal(f.buckets, s);
    RowsInsideAllBut(rows, Daily, Keys(f.buckets), last, s);
  }

  /** With a bucket for every day of the month, a month chart of rows all
      dated inside that month shows every vote. */
  lemma FullMonthShowsAll(y: int, m: int, rows: seq<Row>, s: Side)
    requires 1 <= m <= 12
    requires forall i :: 0 <= i < |rows| ==>
      rows[i].time.year == y && rows[i].time.month == m && 1 <= rows[i].time.day <= DaysInMonth(y, m)
    ensures BucketsTotal(FoldMatching(FullMonthFrame(y, m).buckets, rows, Daily), s) == RowsTotal(rows, s)
  {
    var f := FullMonthFrame(y, m);
    forall i | 0 <= i < |rows|
      ensures RowKey(Daily, rows[i]) in Keys(f.buckets)
    {
      var d := rows[i].time.day;
      assert rows[i].time == Date(y, m, d);
      assert Keys(f.buckets)[d - 1] == DayNumber(Date(y, m, d));
    }
    ConsecutiveKeysDistinct(f.buckets, f.buckets[0].key);
    FoldedTotal(f.buckets, rows, Daily, s);
  }
}

=== FILE: collections.dfy ===
/** Sequence helpers that mirror the two PHP array idioms the statistics code
    relies on: keeping the first occurrence of each value (`array_unique`, or
    assigning into an array keyed by value) and `array_slice($a, 0, $length)`. */
module Collections {

  /** A value that may be missing, as a PHP argument that defaults to null. */
  datatype Option<T> = None | Some(value: T)

  /** True if no value occurs twice in `s`. */
  predicate Distinct<T(==)>(s: seq<T>) {
    forall i, j :: 0 <= i < j < |s| ==> s[i] != s[j]
  }

  /** The index of the first occurrence of `x` in `s`. */
  function FirstIndex<T(==)>(s: seq<T>, x: T): (k: nat)
    requires x in s
    ensures k < |s| && s[k] == x
    ensures forall i :: 0 <= i < k ==> s[i] != x
  {
    if s[0] == x then 0 else 1 + FirstIndex(s[1..], x)
  }

  /** `s` with every repeated value dropped, keeping the first occurrence of
      each value in its original position order. */
  function Dedupe<T(==)>(s: seq<T>): (d: seq<T>)
    ensures |d| <= |s|
  {
    if |s| == 0 then []
    else
      var d := Dedupe(s[..|s| - 1]);
      if s[|s| - 1] in d then d else d + [s[|s| - 1]]
  }

  /** The first-occurrence list has exactly the values of the input. */
  lemma {:induction false} DedupeSameValues<T>(s: seq<T>)
    ensures forall x :: x in Dedupe(s) <==> x in s
  {
    if |s| > 0 {
      var p := s[..|s| - 1];
      DedupeSameValues(p);
      assert s == p + [s[|s| - 1]];
    }
  }

  /** No value occurs twice in the first-occurrence list. */
  lemma {:induction false} DedupeDistinct<T>(s: seq<T>)
    ensures Distinct(Dedupe(s))
  {
    if |s| > 0 {
      DedupeDistinct(s[..|s| - 1]);
    }
  }

  /** Values appear in the order of their first occurrence in the input. */
  lemma {:induction false} DedupeFirstOccurrenceOrder<T>(s: seq<T>)
    ensures forall x :: x in Dedupe(s) ==> x in s
    ensures forall i, j :: 0 <= i < j < |Dedupe(s)| ==>
      FirstIndex(s, Dedupe(s)[i]) < FirstIndex(s, Dedupe(s)[j])
  {
    DedupeSameValues(s);
    if |s| > 0 {
      var p := s[..|s| - 1];
      var x := s[|s| - 1];
      DedupeFirstOccurrenceOrder(p);
      DedupeSameValues(p);
      assert s == p + [x];
      forall y | y in p
        ensures FirstIndex(s, y) == FirstIndex(p, y)
      {
        FirstIndexOfPrefix(p, [x], y);
      }
      if x !in p {
        FirstIndexOfAppended(p, x);
      }
    }
  }

  /** A list without repeats is its own deduplication. */
  lemma {:induction false} DedupeOfDistinct<T>(s: seq<T>)
    requires Distinct(s)
    ensures Dedupe(s) == s
  {
    if |s| > 0 {
      var p := s[..|s| - 1];
      DedupeOfDistinct(p);
      assert s[|s| - 1] !in p;
      assert s == p + [s[|s| - 1]];
    }
  }

  /** Deduplicating a prefix first changes nothing: `Dedupe` reads its input
      left to right and keeps what it has not seen. */
  lemma {:induction false} DedupeOfDeduped<T>(a: seq<T>, c: seq<T>)
    ensures Dedupe(Dedupe(a) + c) == Dedupe(a + c)
    decreases |c|
  {
    if |c| == 0 {
      assert Dedupe(a) + c == Dedupe(a) && a + c == a;
      DedupeDistinct(a);
      DedupeOfDistinct(Dedupe(a));
    } else {
      var c' := c[..|c| - 1];
      var x := c[|c| - 1];
      DedupeOfDeduped(a, c');
      assert (Dedupe(a) + c)[..|Dedupe(a) + c| - 1] == Dedupe(a) + c';
      assert (a + c)[..|a + c| - 1] == a + c';
    }
  }

  /** `DedupeOfDeduped` for a prefix that grows by one element `x` of
      `all == [x] + rest`. */
  lemma DedupeOfDedupedStep<T>(a: seq<T>, x: T, rest: seq<T>, all: seq<T>)
    requires all == [x] + rest
    ensures Dedupe(Dedupe(a + [x]) + rest) == Dedupe(a + all)
  {
    DedupeOfDeduped(a + [x], rest);
    assert (a + [x]) + rest == a + all;
  }

  lemma {:induction false} FirstIndexOfPrefix<T>(p: seq<T>, q: seq<T>, y: T)
    requires y in p
    ensures FirstIndex(p + q, y) == FirstIndex(p, y)
  {
    if p[0] != y {
      assert (p + q)[1..] == p[1..] + q;
      FirstIndexOfPrefix(p[1..], q, y);
    }
  }

  lemma {:induction false} FirstIndexOfAppended<T>(p: seq<T>, x: T)
    requires x !in p
    ensures FirstIndex(p + [x], x) == |p|
  {
    if |p| > 0 {
      assert (p + [x])[1..] == p[1..] + [x];
      FirstIndexOfAppended(p[1..], x);
    }
  }

  /** Input that never increases (a time-descending list of years) gives a
      first-occurrence list that strictly decreases. */
  lemma {:induction false} DedupeOfDescending(s: seq<int>)
    requires forall i, j :: 0 <= i < j < |s| ==> s[i] >= s[j]
    ensures forall i, j :: 0 <= i < j < |Dedupe(s)| ==> Dedupe(s)[i] > Dedupe(s)[j]
  {
    if |s| > 0 {
      var p := s[..|s| - 1];
      var x := s[|s| - 1];
      DedupeOfDescending(p);
      DedupeSameValues(p);
      var d := Dedupe(p);
      if x !in d {
        forall i | 0 <= i < |d|
          ensures d[i] > x
        {
          assert d[i] in p;
          var k :| 0 <= k < |p| && p[k] == d[i];
          assert s[k] >= s[|s| - 1];
        }
      }
    }
  }

  /** The number of elements `array_slice($a, 0, $length)` keeps from an
      array of `n` elements: a non-negative length keeps at most that many, a
      negative length stops that many elements from the end. */
  function SliceLen(n: nat, length: int): (k: nat)
    ensures k <= n
    ensures length >= 0 ==> k <= length && (k == length || k == n)
    ensures length < 0 ==> n - k <= -length && (n - k == -length || k == 0)
  {
    if length >= 0 then (if length < n then length else n)
    else if n + length > 0 then n + length else 0
  }
}

=== FILE: endpoints.dfy ===
/** The cache names the endpoints read through, and the time-series
    endpoints with their cache in front of them.

    The source names the cache entries of the today, yesterday, week, month
    and year statistics by endpoint alone, although their queries also
    depend on the year (and, for the month, on the month) argument, and
    those of today, yesterday and the week on the current date: with caching
    on, one call's rows are then served to a later call with other arguments
    or on another day. `AsWritten` keeps those names; `Corrected` adds the
    arguments and, where the query reads the clock, the date, and only that
    scheme keeps the cache coherent with the database. */
module Endpoints {
  import opened Calendar
  import opened Buckets
  import opened Charts
  import opened Caching
  import opened Collections

  datatype KeyScheme = AsWritten | Corrected

  /** Every call of the helper that goes through the cache. */
  datatype Request =
    | ProCount(post: nat)
    | ContraCount(post: nat)
    | YearList
    | Stats(period: Period)
    | MostHelpfulPosts
    | LeastHelpfulPosts

  function DateArgs(d: Date): (a: seq<int>)
    ensures |a| == 3 && a[0] == d.year && a[1] == d.month && a[2] == d.day
  {
    [d.year, d.month, d.day]
  }

  /** The periods whose query also reads the clock: `NOW()` for today,
      `CURDATE()` for yesterday and this week. */
  predicate ReadsClock(p: Period) {
    p.Today? || p.Yesterday? || p.Week?
  }

  /** The arguments a period's cache name carries in each scheme. The
      corrected names carry every argument the query depends on, the
      current date included for the periods that read the clock. */
  function PeriodArgs(scheme: KeyScheme, p: Period, today: Date): (a: seq<int>)
    ensures p.Range? ==> a == DateArgs(p.from) + DateArgs(p.to)
    ensures p.Total? ==> a == []
    ensures scheme == AsWritten && !p.Range? ==> a == []
    ensures scheme == Corrected && ReadsClock(p) ==> a == [p.year] + DateArgs(today)
    ensures scheme == Corrected && p.Year? ==> a == [p.year]
    ensures scheme == Corrected && p.Month? ==> a == [p.year, p.month]
  {
    match p
    case Range(from, to) => DateArgs(from) + DateArgs(to)
    case Total => []
    case Month(y, m) => if scheme == AsWritten then [] else [y, m]
    case Year(y) => if scheme == AsWritten then [] else [y]
    case _ => if scheme == AsWritten then [] else [p.year] + DateArgs(today)
  }

  function PeriodName(p: Period): string {
    match p
    case Today(_) => "helpful_today"
    case Yesterday(_) => "helpful_yesterday"
    case Week(_) => "helpful_week"
    case Month(_, _) => "helpful_month"
    case Year(_) => "helpful_year"
    case Range(_, _) => "helpful_from_"
    case Total => "helpful_total"
  }

  /** The cache name a request reads and writes on the date `today`. */
  function RequestKey(scheme: KeyScheme, q: Request, today: Date): (k: CacheKey)
    ensures q.ProCount? ==> k == CacheKey("helpful_pro_", [q.post])
    ensures q.ContraCount? ==> k == CacheKey("helpful_contra_", [q.post])
    ensures q.Stats? ==> k == CacheKey(PeriodName(q.period), PeriodArgs(scheme, q.period, today))
  {
    match q
    case ProCount(post) => CacheKey("helpful_pro_", [post])
    case ContraCount(post) => CacheKey("helpful_contra_", [post])
    case YearList => CacheKey("helpful_years", [])
    case Stats(p) => CacheKey(PeriodName(p), PeriodArgs(scheme, p, today))
    case MostHelpfulPosts => CacheKey("helpful_most_helpful", [])
    case LeastHelpfulPosts => CacheKey("helpful_least_helpful", [])
  }

  function StatsKey(scheme: KeyScheme, p: Period, today: Date): CacheKey {
    RequestKey(scheme, Stats(p), today)
  }

  lemma {:induction false} PeriodKeysInjective(p: Period, t: Date, p': Period, t': Date)
    requires StatsKey(Corrected, p, t) == StatsKey(Corrected, p', t')
    ensures p == p'
    ensures ReadsClock(p) ==> t == t'
  {
    var a, a' := PeriodArgs(Corrected, p, t), PeriodArgs(Corrected, p', t');
    assert PeriodName(p) == PeriodName(p') && a == a';
    match p
    case Range(f, to) =>
      assert p'.Range?;
      assert a[0] == f.year && a[1] == f.month && a[2] == f.day;
      assert a[3] == to.year && a[4] == to.month && a[5] == to.day;
      assert a'[0] == p'.from.year && a'[1] == p'.from.month && a'[2] == p'.from.day;
      assert a'[3] == p'.to.year && a'[4] == p'.to.month && a'[5] == p'.to.day;
    case Month(y, m) =>
      assert p'.Month? && a[0] == a'[0] && a[1] == a'[1];
    case Year(y) =>
      assert p'.Year? && a[0] == a'[0];
    case Total =>
    case _ =>
      assert ReadsClock(p');
      assert a[0] == a'[0] && a[1] == a'[1] && a[2] == a'[2] && a[3] == a'[3];
  }

  /** With every argument in the name, two requests share a cache entry only
      when they are the same request, and, for a period that reads the
      clock, only when they are made on the same date. */
  lemma {:induction false} CorrectedKeysInjective(q: Request, t: Date, q': Request, t': Date)
    requires RequestKey(Corrected, q, t) == RequestKey(Corrected, q', t')
    ensures q == q'
    ensures q.Stats? && ReadsClock(q.period) ==> t == t'
  {
    match q
    case Stats(p) =>
      assert RequestKey(Corrected, q', t').name == PeriodName(p);
      assert q'.Stats?;
      PeriodKeysInjective(p, t, q'.period, t');
    case ProCount(post) =>
      assert RequestKey(Corrected, q', t').args == [post];
      assert q'.ProCount? && q'.post == RequestKey(Corrected, q', t').args[0];
    case ContraCount(post) =>
      assert RequestKey(Corrected, q', t').args == [post];
      assert q'.ContraCount? && q'.post == RequestKey(Corrected, q', t').args[0];
    case _ =>
  }

  /** As written, every month statistic, whatever its year and month, and
      every year, today and week statistic, whatever its year and whatever
      the date, share one cache entry. */
  lemma AsWrittenKeysCollide(y: int, m: int, y': int, m': int, t: Date, t': Date)
    ensures StatsKey(AsWritten, Month(y, m), t) == StatsKey(AsWritten, Month(y', m'), t')
    ensures StatsKey(AsWritten, Year(y), t) == StatsKey(AsWritten, Year(y'), t')
    ensures StatsKey(AsWritten, Today(y), t) == StatsKey(AsWritten, Today(y'), t')
    ensures StatsKey(AsWritten, Week(y), t) == StatsKey(AsWritten, Week(y'), t')
  {
  }

  /** A time-series endpoint: read its rows through the cache, where
      `queried` is what its SQL query returns now, then build the answer.
      A month outside 1..12 is served only while no rows reach the chart:
      its query selects none, and a stored entry for it holds none. */
  function ServeStats(scheme: KeyScheme, caching: string, st: Store<seq<Row>>, p: Period,
                      today: Date, queried: seq<Row>): (r: (Response, Store<seq<Row>>))
    requires !WellFormed(p) ==> queried == []
    requires !WellFormed(p) && caching == On && StatsKey(scheme, p, today) in st.entries ==>
      st.entries[StatsKey(scheme, p, today)] == []
    ensures caching != On ==> r.0 == Build(p, today, queried) && r.1.entries == st.entries
    ensures caching == On && StatsKey(scheme, p, today) in st.entries ==>
      r.0 == Build(p, today, st.entries[StatsKey(scheme, p, today)]) && r.1 == st
    ensures caching == On && StatsKey(scheme, p, today) !in st.entries ==>
      r.0 == Build(p, today, queried) && r.1.entries == st.entries[StatsKey(scheme, p, today) := queried]
  {
    var (rows, st') := ReadThrough(caching, st, StatsKey(scheme, p, today), queried);
    (Build(p, today, rows), st')
  }

  /** What `ServeStats` asks of an endpoint call: a month outside 1..12
      reaches it only with no rows, from the query or from the store. */
  predicate Servable(scheme: KeyScheme, caching: string, st: Store<seq<Row>>, p: Period,
                     today: Date, queried: seq<Row>) {
    && (!WellFormed(p) ==> queried == [])
    && (!WellFormed(p) && caching == On && StatsKey(scheme, p, today) in st.entries ==>
          st.entries[StatsKey(scheme, p, today)] == [])
  }

  /** `getStatsMonth($year, $month)`: the month argument is resolved first,
      the current month when it is omitted and its absolute value otherwise,
      and the resolved month is what the query, the cache name and the chart
      see. */
  function MonthStats(scheme: KeyScheme, caching: string, st: Store<seq<Row>>, year: int,
                      month: Option<int>, today: Date, queried: seq<Row>): (r: (Response, Store<seq<Row>>))
    requires Servable(scheme, caching, st, Month(year, MonthArgument(month, today)), today, queried)
    ensures month.None? ==> r == ServeStats(scheme, caching, st, Month(year, today.month), today, queried)
    ensures month.Some? ==> r == ServeStats(scheme, caching, st, Month(year, Abs(month.value)), today, queried)
  {
    ServeStats(scheme, caching, st, Month(year, MonthArgument(month, today)), today, queried)
  }

  /** Omitting the month is the same call as passing the current month. */
  lemma OmittedMonthIsCurrent(scheme: KeyScheme, caching: string, st: Store<seq<Row>>, year: int,
                              today: Date, queried: seq<Row>)
    requires ValidDate(today)
    requires Servable(scheme, caching, st, Month(year, today.month), today, queried)
    ensures MonthStats(scheme, caching, st, year, None, today, queried)
         == MonthStats(scheme, caching, st, year, Some(today.month), today, queried)
  {
  }

  /** A negative month is served as its absolute value: `getStatsMonth(2024, -3)`
      is the March chart, under the March cache name. */
  lemma NegatedMonthIsSame(scheme: KeyScheme, caching: string, st: Store<seq<Row>>, year: int,
                           m: int, today: Date, queried: seq<Row>)
    requires Servable(scheme, caching, st, Month(year, Abs(m)), today, queried)
    ensures MonthStats(scheme, caching, st, year, Some(-m), today, queried)
         == MonthStats(scheme, caching, st, year, Some(m), today, queried)
  {
  }

  /** What each period's query returns on each date. Only the periods that
      read the clock may answer differently on different dates. */
  ghost predicate ClockOnlyWhereRead(db: (Period, Date) -> seq<Row>) {
    forall p, t, t' :: !ReadsClock(p) ==> db(p, t) == db(p, t')
  }

  /** Every stored statistics entry holds what its own query returns on the
      date it is read. */
  ghost predicate Coherent(scheme: KeyScheme, st: Store<seq<Row>>, db: (Period, Date) -> seq<Row>) {
    forall p, t :: StatsKey(scheme, p, t) in st.entries ==> st.entries[StatsKey(scheme, p, t)] == db(p, t)
  }

  /** With the corrected names, a coherent cache answers every period on
      every date exactly as the database would, and stays coherent after
      the read. */
  lemma {:induction false} CorrectedServesOwnRows(caching: string, st: Store<seq<Row>>,
                                                  db: (Period, Date) -> seq<Row>, p: Period, today: Date)
    requires ClockOnlyWhereRead(db) && Coherent(Corrected, st, db)
    requires !WellFormed(p) ==> db(p, today) == []
    ensures ServeStats(Corrected, caching, st, p, today, db(p, today)).0 == Build(p, today, db(p, today))
    ensures Coherent(Corrected, ServeStats(Corrected, caching, st, p, today, db(p, today)).1, db)
  {
    var st' := ServeStats(Corrected, caching, st, p, today, db(p, today)).1;
    forall p', t' | StatsKey(Corrected, p', t') in st'.entries
      ensures st'.entries[StatsKey(Corrected, p', t')] == db(p', t')
    {
      if StatsKey(Corrected, p', t') == StatsKey(Corrected, p, today) {
        PeriodKeysInjective(p', t', p, today);
        if !ReadsClock(p) {
          assert db(p, t') == db(p, today);
        }
      }
    }
  }

  /** Yesterday's entry of the today statistic answers today's call: with a
      cache time that lets the entry outlive the day, the vote of 8 April is
      shown on 9 April, when the query finds no row. */
  lemma TodayKeyServesOtherDay()
    ensures var monday := Date(2024, 4, 8);
            var tuesday := Date(2024, 4, 9);
            var st := ServeStats(AsWritten, On, Store(map[], 0), Today(2024), monday, [Row(1, 0, monday)]).1;
            var r := ServeStats(AsWritten, On, st, Today(2024), tuesday, []).0;
            var st' := ServeStats(Corrected, On, Store(map[], 0), Today(2024), monday, [Row(1, 0, monday)]).1;
            var r' := ServeStats(Corrected, On, st', Today(2024), tuesday, []).0;
            r.Drawn? && Build(Today(2024), tuesday, []) == NoEntries && r' == NoEntries
  {
    var a := PeriodArgs(Corrected, Today(2024), Date(2024, 4, 8));
    var a' := PeriodArgs(Corrected, Today(2024), Date(2024, 4, 9));
    assert a[3] != a'[3];
  }

  /** March's rows of an April cache read: the month entry filled by a
      March call answers the April call, so April's contra vote on the 5th
      is not shown. */
  lemma MonthKeyServesStaleRows()
    ensures var today := Date(2024, 4, 10);
            var march := [Row(1, 0, Date(2024, 3, 5))];
            var april := [Row(0, 1, Date(2024, 4, 5))];
            var st := ServeStats(AsWritten, On, Store(map[], 0), Month(2024, 3), today, march).1;
            var r := ServeStats(AsWritten, On, st, Month(2024, 4), today, april).0;
            r == Build(Month(2024, 4), today, march) && r != Build(Month(2024, 4), today, april)
  {
    var today := Date(2024, 4, 10);
    var march := [Row(1, 0, Date(2024, 3, 5))];
    var april := [Row(0, 1, Date(2024, 4, 5))];
    var p := Month(2024, 4);
    var key := DayNumber(Date(2024, 4, 5));
    assert Window(p, today).buckets[4].key == key;
    BarValuesMatching(p, today, march);
    BarValuesMatching(p, today, april);
    var served := Build(p, today, march).chart.datasets[1];
    var wanted := Build(p, today, april).chart.datasets[1];
    assert served.values[4] == RowsFor(march, Daily, key, Contra) == 0;
    assert wanted.values[4] == RowsFor(april, Daily, key, Contra) == 1;
  }

  /** 2023's entry of the year statistic answers a 2024 call: once a 2023
      call has stored its rows, a 2024 call finds them under the same name
      and answers with something other than "No entries found", although no
      vote was cast in 2024. The stored rows are not empty, so the answer is
      not the error payload whatever the year chart then makes of them; with
      the year in the name the answer is the error payload. */
  lemma YearKeyServesStaleRows()
    ensures var today := Date(2024, 7, 1);
            var before := [Row(1, 0, Date(2023, 6, 1))];
            var st := ServeStats(AsWritten, On, Store(map[], 0), Year(2023), today, before).1;
            var r := ServeStats(AsWritten, On, st, Year(2024), today, []).0;
            var st' := ServeStats(Corrected, On, Store(map[], 0), Year(2023), today, before).1;
            var r' := ServeStats(Corrected, On, st', Year(2024), today, []).0;
            r != NoEntries && Build(Year(2024), today, []) == NoEntries && r' == NoEntries
  {
    assert PeriodArgs(Corrected, Year(2023), Date(2024, 7, 1))[0] != PeriodArgs(Corrected, Year(2024), Date(2024, 7, 1))[0];
  }
}

=== FILE: formats.dfy ===
/** The two PHP string formatters the year chart passes its anchor date
    through, `date($format)` and `sprintf($format, ...$args)`, as far as the
    year chart's format strings need them, with PHP 8 semantics: a
    directive whose type specifier PHP does not know throws a `ValueError`
    instead of being dropped. */
module Formats {

  /** The outcome of `sprintf`: the formatted text, one of the two format
      errors PHP 8 throws, or a directive this model does not render. */
  datatype Formatted =
    | Text(text: string)
    | UnknownSpecifier(specifier: char)
    | MissingSpecifier
    | Unmodelled

  /** The type specifiers `sprintf` accepts. */
  const Specifiers: set<char> :=
    {'b', 'c', 'd', 'e', 'E', 'f', 'F', 'g', 'G', 'h', 'H', 'o', 's', 'u', 'x', 'X'}

  /** The flags of a directive; `'` takes the next character as padding. */
  const Flags: set<char> := {'-', '+', ' ', '0'}

  predicate IsDigit(c: char) {
    '0' <= c <= '9'
  }

  predicate IsLetter(c: char) {
    ('a' <= c <= 'z') || ('A' <= c <= 'Z')
  }

  function DigitChar(n: nat): (c: char)
    requires n < 10
    ensures IsDigit(c) && c as int - '0' as int == n
  {
    (n + '0' as int) as char
  }

  /** The decimal digits of `n`, without leading zeros. */
  function Natural(n: nat): (s: string)
    ensures |s| >= 1 && forall i :: 0 <= i < |s| ==> IsDigit(s[i])
    decreases n
  {
    if n < 10 then [DigitChar(n)] else Natural(n / 10) + [DigitChar(n % 10)]
  }

  /** `%d` of an integer: a minus sign for a negative one, then the digits. */
  function Decimal(n: int): string {
    if n < 0 then "-" + Natural(-n) else Natural(n)
  }

  /** `date('d')`: the day of the month with a leading zero. */
  function TwoDigits(n: nat): (s: string)
    requires n < 100
    ensures |s| == 2 && IsDigit(s[0]) && IsDigit(s[1])
    ensures (s[0] == '0') <==> n < 10
  {
    [DigitChar(n / 10), DigitChar(n % 10)]
  }

  /** `date($format)` on the `day`-th of a month, for a format whose only
      letter is `d` (every format character of `date` is a letter, and a
      backslash escapes the next one): each `d` becomes the two-digit day,
      every other character is copied. */
  function DateOfDay(format: string, day: nat): (s: string)
    requires 1 <= day <= 31
    requires forall i :: 0 <= i < |format| ==>
      format[i] == 'd' || (!IsLetter(format[i]) && format[i] != '\\')
    ensures |s| == |format| + DayCount(format)
    ensures format == "d" ==> s == TwoDigits(day)
    ensures |format| == 1 && format[0] != 'd' ==> s == format
    ensures DayCount(format) == 0 ==> s == format
    decreases |format|
  {
    if format == [] then []
    else (if format[0] == 'd' then TwoDigits(day) else [format[0]]) + DateOfDay(format[1..], day)
  }

  /** `date` works character by character: formatting two pieces and
      joining the results is formatting the joined format. Together with the
      one-character cases of `DateOfDay` this fixes every output. */
  lemma {:induction false} DateOfDayAppend(a: string, b: string, day: nat)
    requires 1 <= day <= 31
    requires forall i :: 0 <= i < |a| ==> a[i] == 'd' || (!IsLetter(a[i]) && a[i] != '\\')
    requires forall i :: 0 <= i < |b| ==> b[i] == 'd' || (!IsLetter(b[i]) && b[i] != '\\')
    ensures DateOfDay(a + b, day) == DateOfDay(a, day) + DateOfDay(b, day)
    decreases |a|
  {
    if a == [] {
      assert a + b == b;
    } else {
      assert (a + b)[1..] == a[1..] + b;
      DateOfDayAppend(a[1..], b, day);
    }
  }

  /** How many `d` format characters `format` holds. */
  function DayCount(format: string): nat
    decreases |format|
  {
    if format == [] then 0 else (if format[0] == 'd' then 1 else 0) + DayCount(format[1..])
  }

  /** How many characters at the start of `s` are digits. */
  function LeadingDigits(s: string): (k: nat)
    ensures k <= |s|
    ensures forall i :: 0 <= i < k ==> IsDigit(s[i])
    ensures k < |s| ==> !IsDigit(s[k])
    decreases |s|
  {
    if s != [] && IsDigit(s[0]) then 1 + LeadingDigits(s[1..]) else 0
  }

  /** How many characters at the start of `s` are flags. */
  function LeadingFlags(s: string): (k: nat)
    ensures k <= |s|
    decreases |s|
  {
    if s == [] then 0
    else if s[0] in Flags then 1 + LeadingFlags(s[1..])
    else if s[0] == '\'' && |s| >= 2 then 2 + LeadingFlags(s[2..])
    else 0
  }

  /** The length of the modifiers of a directive (`s` starts after the
      `%`): an argument number `n$`, flags, a width and a precision, each
      optional. PHP reads them only when the first character is not a
      letter. */
  function ModifiersLength(s: string): (k: nat)
    ensures k <= |s|
    ensures s != [] && IsLetter(s[0]) ==> k == 0
  {
    if s == [] || IsLetter(s[0]) then 0
    else
      var a := LeadingDigits(s);
      var n := if 0 < a < |s| && s[a] == '$' then a + 1 else 0;
      var f := n + LeadingFlags(s[n..]);
      var w := f + (if f < |s| && s[f] == '*' then 1 else LeadingDigits(s[f..]));
      if w < |s| && s[w] == '.' then
        w + 1 + (if w + 1 < |s| && s[w + 1] == '*' then 1 else LeadingDigits(s[w + 1..]))
      else w
  }

  function Prepend(s: string, f: Formatted): Formatted {
    if f.Text? then Text(s + f.text) else f
  }

  /** `sprintf($format, ...$args)`: text is copied, `%%` is a percent sign,
      and a directive is parsed as PHP does. When an argument is left for
      it, a directive ending in an unknown type specifier, or in none, is an
      error wherever it stands, and a plain `%d` renders the argument. A
      directive with no argument left (which PHP skips, to throw
      `ArgumentCountError` at the end) and every other directive are outside
      this model. */
  function Sprintf(format: string, args: seq<int>): (r: Formatted)
    ensures (forall i :: 0 <= i < |format| ==> format[i] != '%') ==> r == Text(format)
    decreases |format|
  {
    if format == [] then Text([])
    else if format[0] != '%' then
      assert [format[0]] + format[1..] == format;
      Prepend([format[0]], Sprintf(format[1..], args))
    else if |format| >= 2 && format[1] == '%' then Prepend("%", Sprintf(format[2..], args))
    else if args == [] then Unmodelled
    else
      var rest := format[1..];
      var m := ModifiersLength(rest);
      var t := if m < |rest| && rest[m] == 'l' then m + 1 else m;
      if t == |rest| then MissingSpecifier
      else if rest[t] !in Specifiers then UnknownSpecifier(rest[t])
      else if t == 0 && rest[0] == 'd' then Prepend(Decimal(args[0]), Sprintf(rest[1..], args[1..]))
      else Unmodelled
  }

  /** `date('%d-1-1')` on the `day`-th: a percent sign, the two-digit day
      and `-1-1`. */
  lemma AnchorDate(day: nat)
    requires 1 <= day <= 31
    ensures DateOfDay("%d-1-1", day) == "%" + (TwoDigits(day) + "-1-1")
  {
    assert DateOfDay("1", day) == "1";
    assert DateOfDay("-1", day) == "-1";
    assert DateOfDay("1-1", day) == "1-1";
    assert DateOfDay("-1-1", day) == "-1-1";
    assert DateOfDay("d-1-1", day) == TwoDigits(day) + "-1-1";
    assert "%d-1-1"[1..] == "d-1-1";
  }

  /** After the `%`, a two-digit day followed by `-` is read as modifiers
      two characters long: a `0` flag and a one-digit width before the tenth,
      a two-digit width from then on. */
  lemma DayIsModifiers(day: nat, tail: string)
    requires 1 <= day <= 31
    requires tail != [] && tail[0] == '-'
    ensures ModifiersLength(TwoDigits(day) + tail) == 2
  {
    var s := TwoDigits(day) + tail;
    assert s[2..] == tail;
    assert LeadingDigits(s[2..]) == 0;
    assert LeadingDigits(s[1..]) == 1;
    assert LeadingDigits(s) == 2;
    if day < 10 {
      assert s[1..][1..] == tail;
      assert LeadingFlags(s[1..]) == 0;
      assert LeadingFlags(s) == 1;
      assert LeadingDigits(s[1..]) == 1;
    } else {
      assert LeadingFlags(s) == 0;
    }
  }

  /** The year chart's anchor as written, `sprintf(date('%d-1-1'), $year)`:
      `date` turns the `d` into the day of the month, and `sprintf` then
      reads `%` followed by that day as flags and width, and `-` as the type
      specifier, which it does not know. On every day of every month the
      call throws. */
  lemma YearAnchorFails(day: nat, year: int)
    requires 1 <= day <= 31
    ensures Sprintf(DateOfDay("%d-1-1", day), [year]) == UnknownSpecifier('-')
  {
    AnchorDate(day);
    DayIsModifiers(day, "-1-1");
    AnchorAfterDay(TwoDigits(day), [year]);
  }

  /** Whatever `date` put in place of the `d`, if `sprintf` reads it as
      modifiers two characters long the `-` after it is the specifier. */
  lemma AnchorAfterDay(d: string, args: seq<int>)
    requires |d| == 2 && d[0] != '%' && args != []
    requires ModifiersLength(d + "-1-1") == 2
    ensures Sprintf("%" + (d + "-1-1"), args) == UnknownSpecifier('-')
  {
    var f := "%" + (d + "-1-1");
    assert f[1..] == d + "-1-1";
    assert f[3] == '-';
    UnknownDirective(f, args, 2);
  }

  /** A directive whose `m` characters of modifiers are followed by a
      character that is neither the `l` length modifier nor a type specifier
      makes the whole call fail with that character. */
  lemma UnknownDirective(format: string, args: seq<int>, m: nat)
    requires m + 1 < |format| && format[0] == '%' && format[1] != '%' && args != []
    requires ModifiersLength(format[1..]) == m
    requires format[m + 1] != 'l' && format[m + 1] !in Specifiers
    ensures Sprintf(format, args) == UnknownSpecifier(format[m + 1])
  {
  }

  /** The anchor the year chart evidently means, `sprintf('%d-1-1', $year)`:
      the first of January of the requested year, from which the chart
      steps forward one month per bucket. */
  lemma IntendedYearAnchor(year: int)
    ensures Sprintf("%d-1-1", [year]) == Text(Decimal(year) + "-1-1")
  {
    var f := "%d-1-1";
    assert f[1..] == "d-1-1" && f[1..][1..] == "-1-1";
    assert ModifiersLength(f[1..]) == 0;
    assert Sprintf("-1-1", [year][1..]) == Text("-1-1");
  }
}

=== FILE: percentages.dfy ===
/** Per-post vote counts and the percentage shares `getPro` and `getContra`
    report when asked for percentages. Ratios are exact reals: the rounding
    to two places and the "trailing .00" string trimming are display
    formatting and are not modelled. */
module Percentages {

  /** The pro and contra vote counts of one post. */
  datatype Tally = Tally(pro: nat, contra: nat)

  /** The share of `part` in `part + other`, in percent, with the source's
      zero guard: no division happens when `part` is zero. */
  function Share(part: nat, other: nat): (r: real)
    ensures 0.0 <= r <= 100.0
    ensures r == 0.0 <==> part == 0
    ensures r == 100.0 <==> part > 0 && other == 0
    ensures part > 0 ==> r * (part + other) as real == 100.0 * part as real
  {
    if part == 0 then 0.0 else (part as real / (part + other) as real) * 100.0
  }

  /** `getPro($post_id, true)`: zero when the post has no pro vote, otherwise
      the pro share of all its votes. */
  function ProPercentage(t: Tally): (r: real)
    ensures 0.0 <= r <= 100.0
    ensures r == 0.0 <==> t.pro == 0
    ensures t.pro > 0 ==> r * (t.pro + t.contra) as real == 100.0 * t.pro as real
  {
    Share(t.pro, t.contra)
  }

  /** `getContra($post_id, true)`: zero when the post has no contra vote,
      otherwise the contra share of all its votes. */
  function ContraPercentage(t: Tally): (r: real)
    ensures 0.0 <= r <= 100.0
    ensures r == 0.0 <==> t.contra == 0
    ensures t.contra > 0 ==> r * (t.pro + t.contra) as real == 100.0 * t.contra as real
  {
    Share(t.contra, t.pro)
  }

  /** When a post has votes of both kinds, its pro and contra percentages add
      up to 100; when it has votes of only one kind, that kind shows 100 and
      the other 0. */
  lemma PercentagesComplement(t: Tally)
    requires t.pro + t.contra > 0
    ensures ProPercentage(t) + ContraPercentage(t) == 100.0
  {
    var total := (t.pro + t.contra) as real;
    if t.pro > 0 && t.contra > 0 {
      assert ProPercentage(t) == t.pro as real / total * 100.0;
      assert ContraPercentage(t) == t.contra as real / total * 100.0;
      assert t.pro as real / total + t.contra as real / total == (t.pro as real + t.contra as real) / total;
    }
  }
}

=== FILE: ranking.dfy ===
/** The leaderboards `getMostHelpful` and `getLeastHelpful`: score every
    post, sort by score (highest first, ties in encounter order), cut the
    list to the limit, then skip posts whose score is zero. */
module Ranking {
  import opened Collections
  import opened Percentages

  datatype Direction = MostHelpful | LeastHelpful

  /** The counts `getPro`/`getContra` report for a post; a post nobody voted
      on counts zero of each. */
  function TallyOf(tallies: map<int, Tally>, post: int): Tally {
    if post in tallies then tallies[post] else Tally(0, 0)
  }

  /** Net score: pro minus contra for the most helpful list, contra minus pro
      for the least helpful one. */
  function Score(d: Direction, t: Tally): (r: int)
    ensures d == MostHelpful ==> r == t.pro - t.contra
    ensures d == LeastHelpful ==> r == t.contra - t.pro
    ensures r != 0 ==> t.pro + t.contra > 0
    ensures r == 0 <==> t.pro == t.contra
  {
    match d
    case MostHelpful => t.pro - t.contra
    case LeastHelpful => t.contra - t.pro
  }

  /** A post in the score array: its id, its score, and its position in the
      order the posts were found. */
  datatype Candidate = Candidate(post: int, score: int, order: nat)

  /** The score array `$posts[$post_id] = score`: one entry per distinct
      post, in order of first appearance. */
  function Candidates(d: Direction, posts: seq<int>, tallies: map<int, Tally>): (cs: seq<Candidate>)
    ensures |cs| == |Dedupe(posts)|
    ensures forall i :: 0 <= i < |cs| ==>
      cs[i].post == Dedupe(posts)[i] && cs[i].order == i && cs[i].score == Score(d, TallyOf(tallies, cs[i].post))
  {
    var ids := Dedupe(posts);
    seq(|ids|, i requires 0 <= i < |ids| => Candidate(ids[i], Score(d, TallyOf(tallies, ids[i])), i))
  }

  /** `a` comes before `b` in a stable descending sort by score. */
  predicate Outranks(a: Candidate, b: Candidate) {
    a.score > b.score || (a.score == b.score && a.order < b.order)
  }

  /** Every candidate outranks every one after it. */
  predicate Ranked(s: seq<Candidate>) {
    forall i, j :: 0 <= i < j < |s| ==> Outranks(s[i], s[j])
  }

  /** No two candidates share an encounter position. */
  predicate DistinctOrders(s: seq<Candidate>) {
    forall i, j :: 0 <= i < j < |s| ==> s[i].order != s[j].order
  }

  function Insert(c: Candidate, s: seq<Candidate>): (r: seq<Candidate>)
    ensures multiset(r) == multiset(s) + multiset{c}
    ensures |r| == |s| + 1
  {
    if s == [] then [c]
    else if Outranks(c, s[0]) then [c] + s
    else
      assert s == [s[0]] + s[1..];
      [s[0]] + Insert(c, s[1..])
  }

  lemma {:induction false} InsertRanked(c: Candidate, s: seq<Candidate>)
    requires Ranked(s)
    requires forall x :: x in s ==> x.order != c.order
    ensures Ranked(Insert(c, s))
  {
    if s != [] && !Outranks(c, s[0]) {
      InsertRanked(c, s[1..]);
      var r := Insert(c, s);
      assert r == [s[0]] + Insert(c, s[1..]);
      forall j | 1 <= j < |r|
        ensures Outranks(s[0], r[j])
      {
        assert r[j] in multiset(Insert(c, s[1..]));
        assert r[j] in multiset(s[1..]) + multiset{c};
        if r[j] != c {
          assert r[j] in s[1..];
          var k :| 0 <= k < |s[1..]| && s[1..][k] == r[j];
          assert s[k + 1] == r[j];
        }
      }
    }
  }

  /** `arsort`: stable sort by score, highest first. */
  function SortByScore(cs: seq<Candidate>): (r: seq<Candidate>)
    ensures multiset(r) == multiset(cs)
    ensures |r| == |cs|
  {
    if cs == [] then []
    else
      assert cs == [cs[0]] + cs[1..];
      Insert(cs[0], SortByScore(cs[1..]))
  }

  /** With distinct encounter positions, the sort leaves every candidate
      ahead of all those it outranks: scores never increase along the list,
      and equal scores keep the order in which the posts were found. */
  lemma {:induction false} SortRanked(cs: seq<Candidate>)
    requires DistinctOrders(cs)
    ensures Ranked(SortByScore(cs))
  {
    if cs != [] {
      assert DistinctOrders(cs[1..]);
      SortRanked(cs[1..]);
      forall x | x in SortByScore(cs[1..])
        ensures x.order != cs[0].order
      {
        assert x in multiset(cs[1..]);
        var k :| 0 <= k < |cs[1..]| && cs[1..][k] == x;
        assert cs[k + 1] == x;
      }
      InsertRanked(cs[0], SortByScore(cs[1..]));
    }
  }

  /** One line of a leaderboard. */
  datatype Entry = Entry(post: int, pro: nat, contra: nat, percentage: real)

  /** The percentage a leaderboard line shows. The most helpful list divides
      pro by the total; the least helpful list shows zero when contra is the
      whole total and otherwise also divides pro by the total. The caller
      only asks for posts with a non-zero score, whose total is positive. */
  function LinePercentage(d: Direction, t: Tally): real
    requires t.pro + t.contra > 0
  {
    var total := (t.pro + t.contra) as real;
    match d
    case MostHelpful => (t.pro as real / total) * 100.0
    case LeastHelpful => if t.contra as real / total == 1.0 then 0.0 else (t.pro as real / total) * 100.0
  }

  /** Both leaderboards show the pro share: on the least helpful list the
      zero shown when every vote is contra is the pro share as well. */
  lemma LinePercentageIsProShare(d: Direction, t: Tally)
    requires t.pro + t.contra > 0
    ensures LinePercentage(d, t) == ProPercentage(t)
  {
    var total := (t.pro + t.contra) as real;
    if t.pro == 0 {
      assert t.contra as real / total == 1.0;
    }
  }

  /** The candidates of the cut list that the loop does not skip: those
      with a non-zero score, in the same order. */
  function Kept(top: seq<Candidate>): (k: seq<Candidate>)
    ensures |k| <= |top|
    ensures forall c :: c in k ==> c in top && c.score != 0
    ensures forall c :: c in top && c.score != 0 ==> c in k
  {
    if top == [] then []
    else
      var rest := Kept(top[1..]);
      assert forall c :: c in top ==> c == top[0] || c in top[1..];
      if top[0].score == 0 then rest else [top[0]] + rest
  }

  /** Skipping candidates keeps the survivors in ranked order. */
  lemma {:induction false} KeptRanked(top: seq<Candidate>)
    requires Ranked(top)
    ensures Ranked(Kept(top))
  {
    if top != [] {
      KeptRanked(top[1..]);
      var rest := Kept(top[1..]);
      forall c | c in rest
        ensures Outranks(top[0], c)
      {
        var j :| 0 <= j < |top[1..]| && top[1..][j] == c;
        assert top[j + 1] == c;
      }
    }
  }

  /** In a ranked list, a candidate with a higher score stands earlier. */
  lemma RankedPosition(s: seq<Candidate>, a: int, b: int)
    requires Ranked(s) && 0 <= a < |s| && 0 <= b < |s|
    requires s[a].score > s[b].score
    ensures a < b
  {
  }

  /** One line of the board, for a candidate that scores non-zero. */
  function Line(d: Direction, tallies: map<int, Tally>, c: Candidate): Entry
    requires c.score == Score(d, TallyOf(tallies, c.post)) && c.score != 0
  {
    var t := TallyOf(tallies, c.post);
    Entry(c.post, t.pro, t.contra, LinePercentage(d, t))
  }

  function LineScore(d: Direction, e: Entry): int {
    Score(d, Tally(e.pro, e.contra))
  }

  /** The score array after `arsort`: every candidate once, ranked. */
  function Standings(d: Direction, posts: seq<int>, tallies: map<int, Tally>): (s: seq<Candidate>)
    ensures |s| == |Dedupe(posts)|
    ensures multiset(s) == multiset(Candidates(d, posts, tallies))
    ensures Ranked(s)
  {
    var cs := Candidates(d, posts, tallies);
    SortRanked(cs);
    SortByScore(cs)
  }

  /** The lines a leaderboard is built from: all candidates sorted, cut to
      the limit (`array_slice`), zero scores skipped. Exactly the non-zero
      candidates among the first `SliceLen` of the standings are shown. */
  function Shown(d: Direction, posts: seq<int>, tallies: map<int, Tally>, limit: int): (k: seq<Candidate>)
    ensures forall c :: c in k ==> c in Candidates(d, posts, tallies) && c.score != 0
    ensures Ranked(k)
    ensures |k| <= SliceLen(|Dedupe(posts)|, limit)
    ensures forall i :: 0 <= i < SliceLen(|Dedupe(posts)|, limit) && Standings(d, posts, tallies)[i].score != 0 ==>
      Standings(d, posts, tallies)[i] in k
    ensures forall c :: c in k ==>
      exists i :: 0 <= i < SliceLen(|Dedupe(posts)|, limit) && Standings(d, posts, tallies)[i] == c
  {
    var sorted := Standings(d, posts, tallies);
    var top := sorted[..SliceLen(|sorted|, limit)];
    assert Ranked(top);
    assert forall c :: c in top ==> c in multiset(Candidates(d, posts, tallies));
    KeptRanked(top);
    KeptOfCut(sorted, SliceLen(|sorted|, limit));
    Kept(top)
  }

  /** Skipping over a cut of a list keeps exactly the non-zero entries among
      the cut's positions. */
  lemma KeptOfCut(s: seq<Candidate>, n: nat)
    requires n <= |s|
    ensures forall i :: 0 <= i < n && s[i].score != 0 ==> s[i] in Kept(s[..n])
    ensures forall c :: c in Kept(s[..n]) ==> exists i :: 0 <= i < n && s[i] == c
  {
    var top := s[..n];
    forall i | 0 <= i < n && s[i].score != 0
      ensures s[i] in Kept(top)
    {
      assert top[i] == s[i];
    }
    forall c | c in Kept(top)
      ensures exists i :: 0 <= i < n && s[i] == c
    {
      var i :| 0 <= i < n && top[i] == c;
    }
  }

  /** The lines for the shown candidates, one each, in the same order. */
  function Lines(d: Direction, tallies: map<int, Tally>, k: seq<Candidate>): (r: seq<Entry>)
    requires forall c :: c in k ==> c.score == Score(d, TallyOf(tallies, c.post)) && c.score != 0
    ensures |r| == |k|
    ensures forall i :: 0 <= i < |k| ==>
      && r[i].post == k[i].post
      && Tally(r[i].pro, r[i].contra) == TallyOf(tallies, k[i].post)
      && LineScore(d, r[i]) == k[i].score
      && r[i].percentage == ProPercentage(Tally(r[i].pro, r[i].contra))
  {
    var r := seq(|k|, i requires 0 <= i < |k| => Line(d, tallies, k[i]));
    assert forall i :: 0 <= i < |k| ==> r[i].percentage == ProPercentage(Tally(r[i].pro, r[i].contra)) by {
      forall i | 0 <= i < |k|
        ensures r[i].percentage == ProPercentage(Tally(r[i].pro, r[i].contra))
      {
        assert k[i] in k;
        assert Score(d, TallyOf(tallies, k[i].post)) != 0;
        LinePercentageIsProShare(d, TallyOf(tallies, k[i].post));
      }
    }
    r
  }

  /** A leaderboard: with fewer than two distinct posts it is empty.
      Otherwise it has one line for each post with a non-zero score among
      the first `SliceLen` of the standings and no other line, so at most
      `limit` lines (fewer when zero scores fell inside the cut). Scores
      never increase, equal scores keep the order in which the posts were
      found, each post appears once, and each line carries its post's counts
      and the pro share. */
  function Leaderboard(d: Direction, posts: seq<int>, tallies: map<int, Tally>, limit: int): (r: seq<Entry>)
    ensures |Dedupe(posts)| <= 1 ==> r == []
    ensures |r| <= SliceLen(|Dedupe(posts)|, limit)
    ensures limit >= 0 ==> |r| <= limit
    ensures forall i :: 0 <= i < |r| ==>
      r[i].post in posts && Tally(r[i].pro, r[i].contra) == TallyOf(tallies, r[i].post) && LineScore(d, r[i]) != 0
    ensures |Dedupe(posts)| > 1 ==>
      forall i :: 0 <= i < SliceLen(|Dedupe(posts)|, limit) && Standings(d, posts, tallies)[i].score != 0 ==>
        exists j :: 0 <= j < |r| && r[j].post == Standings(d, posts, tallies)[i].post
    ensures forall j :: 0 <= j < |r| ==>
      exists i :: 0 <= i < SliceLen(|Dedupe(posts)|, limit) && Standings(d, posts, tallies)[i].post == r[j].post
    ensures forall i, j :: 0 <= i < j < |r| ==> LineScore(d, r[i]) >= LineScore(d, r[j])
    ensures forall i, j :: 0 <= i < j < |r| && LineScore(d, r[i]) == LineScore(d, r[j]) ==>
      FirstIndex(posts, r[i].post) < FirstIndex(posts, r[j].post)
    ensures forall i, j :: 0 <= i < j < |r| ==> r[i].post != r[j].post
    ensures forall i :: 0 <= i < |r| ==> r[i].percentage == ProPercentage(Tally(r[i].pro, r[i].contra))
  {
    if |Dedupe(posts)| <= 1 then []
    else
      var k := Shown(d, posts, tallies, limit);
      ShownPosts(d, posts, tallies, limit);
      var r := Lines(d, tallies, k);
      LinesFollowShown(d, posts, tallies, limit, k, r);
      r
  }

  /** The cut-and-skip facts about `Shown`, carried over to the lines built
      from it. */
  lemma LinesFollowShown(d: Direction, posts: seq<int>, tallies: map<int, Tally>, limit: int,
                         k: seq<Candidate>, r: seq<Entry>)
    requires k == Shown(d, posts, tallies, limit)
    requires |r| == |k| && forall i :: 0 <= i < |k| ==> r[i].post == k[i].post
    ensures forall i :: 0 <= i < SliceLen(|Dedupe(posts)|, limit) && Standings(d, posts, tallies)[i].score != 0 ==>
      exists j :: 0 <= j < |r| && r[j].post == Standings(d, posts, tallies)[i].post
    ensures forall j :: 0 <= j < |r| ==>
      exists i :: 0 <= i < SliceLen(|Dedupe(posts)|, limit) && Standings(d, posts, tallies)[i].post == r[j].post
  {
    var s := Standings(d, posts, tallies);
    forall i | 0 <= i < SliceLen(|Dedupe(posts)|, limit) && s[i].score != 0
      ensures exists j :: 0 <= j < |r| && r[j].post == s[i].post
    {
      var j :| 0 <= j < |k| && k[j] == s[i];
      assert r[j].post == s[i].post;
    }
    forall j | 0 <= j < |r|
      ensures exists i :: 0 <= i < SliceLen(|Dedupe(posts)|, limit) && s[i].post == r[j].post
    {
      assert k[j] in k;
      var i :| 0 <= i < SliceLen(|Dedupe(posts)|, limit) && s[i] == k[j];
    }
  }

  /** Shown candidates are posts from the input, each shown once, with
      scores that never increase. */
  lemma ShownPosts(d: Direction, posts: seq<int>, tallies: map<int, Tally>, limit: int)
    ensures forall c :: c in Shown(d, posts, tallies, limit) ==>
      c.post in posts && c.score == Score(d, TallyOf(tallies, c.post)) && c.score != 0
    ensures forall i, j :: 0 <= i < j < |Shown(d, posts, tallies, limit)| ==>
      Shown(d, posts, tallies, limit)[i].post != Shown(d, posts, tallies, limit)[j].post
      && Shown(d, posts, tallies, limit)[i].score >= Shown(d, posts, tallies, limit)[j].score
    ensures forall i, j ::
      (0 <= i < j < |Shown(d, posts, tallies, limit)|
       && Shown(d, posts, tallies, limit)[i].score == Shown(d, posts, tallies, limit)[j].score) ==>
      FirstIndex(posts, Shown(d, posts, tallies, limit)[i].post) < FirstIndex(posts, Shown(d, posts, tallies, limit)[j].post)
  {
    var k := Shown(d, posts, tallies, limit);
    var cs := Candidates(d, posts, tallies);
    DedupeSameValues(posts);
    DedupeDistinct(posts);
    assert forall c :: c in k ==> c == cs[c.order] && c.post in posts;
    DedupeFirstOccurrenceOrder(posts);
    forall i, j | 0 <= i < j < |k|
      ensures k[i].post != k[j].post && k[i].score >= k[j].score
      ensures k[i].score == k[j].score ==> FirstIndex(posts, k[i].post) < FirstIndex(posts, k[j].post)
    {
      assert Outranks(k[i], k[j]);
      assert k[i] in k && k[j] in k;
    }
  }

  /** Among the candidates, one that scores non-zero and higher than a shown
      candidate is shown too: the cut keeps a prefix of the ranking. */
  lemma ShownKeepsHigherScores(d: Direction, posts: seq<int>, tallies: map<int, Tally>, limit: int, c: Candidate, e: Candidate)
    requires c in Candidates(d, posts, tallies) && c.score != 0
    requires e in Shown(d, posts, tallies, limit) && c.score > e.score
    ensures c in Shown(d, posts, tallies, limit)
  {
    var cs := Candidates(d, posts, tallies);
    var sorted := SortByScore(cs);
    SortRanked(cs);
    var top := sorted[..SliceLen(|cs|, limit)];
    assert Shown(d, posts, tallies, limit) == Kept(top);
    assert c in multiset(sorted);
    var a :| 0 <= a < |sorted| && sorted[a] == c;
    var b :| 0 <= b < |top| && top[b] == e;
    RankedPosition(sorted, a, b);
    assert top[a] == c;
  }

  /** The cut comes before the skip: a post that scores non-zero and higher
      than some line of the board is on the board itself. */
  lemma LeaderboardKeepsHigherScores(d: Direction, posts: seq<int>, tallies: map<int, Tally>, limit: int, p: int)
    requires p in posts && Score(d, TallyOf(tallies, p)) != 0
    ensures var r := Leaderboard(d, posts, tallies, limit);
      (exists i :: 0 <= i < |r| && Score(d, TallyOf(tallies, p)) > LineScore(d, r[i])) ==>
      exists j :: 0 <= j < |r| && r[j].post == p
  {
    var cs := Candidates(d, posts, tallies);
    var k := Shown(d, posts, tallies, limit);
    var r := Leaderboard(d, posts, tallies, limit);
    if i :| 0 <= i < |r| && Score(d, TallyOf(tallies, p)) > LineScore(d, r[i]) {
      assert r == Lines(d, tallies, k);
      DedupeSameValues(posts);
      var c := cs[FirstIndex(Dedupe(posts), p)];
      assert c in cs;
      ShownKeepsHigherScores(d, posts, tallies, limit, c, k[i]);
      var j :| 0 <= j < |k| && k[j] == c;
      assert r[j].post == p;
    }
  }

  /** A worked board: posts 1, 2 and 3 with tallies 5/0, 2/2 and 1/4,
      most helpful, limit 2. The two best are 1 and 2, and 2 scores zero, so
      the board shows post 1 alone at 100 percent. */
  lemma LeaderboardExample()
    ensures Leaderboard(MostHelpful, [1, 2, 3], map[1 := Tally(5, 0), 2 := Tally(2, 2), 3 := Tally(1, 4)], 2)
         == [Entry(1, 5, 0, 100.0)]
  {
    var tallies := map[1 := Tally(5, 0), 2 := Tally(2, 2), 3 := Tally(1, 4)];
    ExampleCandidates();
    ExampleSorted();
    ExampleKept();
    var cs := [Candidate(1, 5, 0), Candidate(2, 0, 1), Candidate(3, -3, 2)];
    assert cs[..2] == [Candidate(1, 5, 0), Candidate(2, 0, 1)];
    assert Shown(MostHelpful, [1, 2, 3], tallies, 2) == [Candidate(1, 5, 0)];
    var r := Lines(MostHelpful, tallies, [Candidate(1, 5, 0)]);
    assert r[0] == Line(MostHelpful, tallies, Candidate(1, 5, 0));
  }

  lemma ExampleCandidates()
    ensures Candidates(MostHelpful, [1, 2, 3], map[1 := Tally(5, 0), 2 := Tally(2, 2), 3 := Tally(1, 4)])
         == [Candidate(1, 5, 0), Candidate(2, 0, 1), Candidate(3, -3, 2)]
  {
    assert [1, 2, 3][..2] == [1, 2];
    assert [1, 2][..1] == [1];
    assert [1][..0] == [];
    assert Dedupe([1, 2, 3]) == [1, 2, 3];
  }

  lemma ExampleSorted()
    ensures SortByScore([Candidate(1, 5, 0), Candidate(2, 0, 1), Candidate(3, -3, 2)])
         == [Candidate(1, 5, 0), Candidate(2, 0, 1), Candidate(3, -3, 2)]
  {
    var cs := [Candidate(1, 5, 0), Candidate(2, 0, 1), Candidate(3, -3, 2)];
    assert cs[1..] == [Candidate(2, 0, 1), Candidate(3, -3, 2)];
    assert cs[1..][1..] == [Candidate(3, -3, 2)];
    assert cs[1..][1..][1..] == [];
  }

  lemma ExampleKept()
    ensures Kept([Candidate(1, 5, 0), Candidate(2, 0, 1)]) == [Candidate(1, 5, 0)]
  {
    var top := [Candidate(1, 5, 0), Candidate(2, 0, 1)];
    assert top[1..] == [Candidate(2, 0, 1)];
    assert top[1..][1..] == [];
  }
}

=== FILE: years.dfy ===
/** `getYears`: the years that occur in the vote log, from the vote times
    the query returns newest first, each year once. */
module Years {
  import opened Calendar
  import opened Collections

  function YearOfEach(times: seq<Date>): (ys: seq<int>)
    ensures |ys| == |times|
    ensures forall i :: 0 <= i < |times| ==> ys[i] == times[i].year
  {
    seq(|times|, i requires 0 <= i < |times| => times[i].year)
  }

  /** The year list (`array_unique` of the years): each year of a vote time
      exactly once, in the order in which the years first occur. */
  function YearList(times: seq<Date>): (ys: seq<int>)
    ensures Distinct(ys)
    ensures forall y :: y in ys <==> y in YearOfEach(times)
    ensures forall i, j :: 0 <= i < j < |ys| ==>
      FirstIndex(YearOfEach(times), ys[i]) < FirstIndex(YearOfEach(times), ys[j])
  {
    var all := YearOfEach(times);
    DedupeDistinct(all);
    DedupeSameValues(all);
    DedupeFirstOccurrenceOrder(all);
    Dedupe(all)
  }

  /** Date order of the `time` column. */
  predicate NotAfter(a: Date, b: Date) {
    a.year < b.year
    || (a.year == b.year && (a.month < b.month || (a.month == b.month && a.day <= b.day)))
  }

  /** Vote times listed newest first (`ORDER BY time DESC`) give a year list
      that strictly decreases. */
  lemma YearListDescending(times: seq<Date>)
    requires forall i, j :: 0 <= i < j < |times| ==> NotAfter(times[j], times[i])
    ensures forall i, j :: 0 <= i < j < |YearList(times)| ==> YearList(times)[i] > YearList(times)[j]
  {
    DedupeOfDescending(YearOfEach(times));
  }
}
